=== FILE: README.md ===
# Marketing site rules, modelled in Dafny

The site is a static marketing site for several services. Six of its scripts hold small rules that can be stated exactly. This project models them and proves what they promise:

- **Art shop cart** (`js/shop.js`). The cart is an ordered list of lines keyed by (product id, variant id). It supports add, "+", "−", remove and clear. It derives the badge count and the total. Checkout builds the order payload and empties the cart only on success. The shop also has price sorting and the category filter for the product grid.
- **Delivery quotes** (`js/logistics.js`). A static price table is looked up by route, then by the reverse route, then by a default row. On top of that come the weight surcharge, the route rule that enables the same-day option, the phone-number normaliser and the weight clamp.
- **Admin session gate** (`admin/js/admin-auth.js`). A demo credential check and a login form that writes to the session store or the local store. A reader prefers the session store and expires entries after 24 hours. Redirects go between the login page and the protected pages.
- **Service slideshows** (`js/slideshow.js`). These use clamp-style wrap-around and mark exactly one slide and dot as active. They also cover the swipe decision, the container height rule and the lazy registry of one slideshow per service type.
- **Testimonial slider** (`js/lifestyle.js`). It uses modular wrap-around, dot clicks and exactly one active item and dot.
- **Checkout route** (`server.js`). It validates the request, normalises the items to four fields and maps the print provider's answer to a response. It is joined to the shop in `checkout_flow.dfy`: when every stored variant id is numeric, what the cart sends is what the provider receives, and a stored id that is not a number reaches the provider as 0.

Modelling choices:
- Money, weights and screen coordinates are `real`. A line's amount (price × qty) is defined as repeated addition and proved equal to the product.
- Timestamps are `int` milliseconds passed in as `now`.
- Storage slots are `Option` fields.
- DOM element lists are arrays of "active" flags.
- JavaScript values that cross the network are the `JsValue.Value` datatype.
- `Number(...)` on a string is modelled for integer syntax.
- The provider's answer, the clock and the fabricated login token are parameters.

Files:
- `wrappers.dfy`: the `Option` type.
- `js_value.dfy`: JavaScript values and number coercion.
- `shop.dfy`, `logistics.dfy`, `admin_auth.dfy`, `slideshow.dfy`, `lifestyle.dfy`, `server.dfy`: one per script.
- `checkout_flow.dfy`: the shop and the route together.

## Model

| member | source | states |
|---|---|---|
| JsValue.ParseNumber | js/shop.js:159 | On the white-space-trimmed string: empty gives 0, digits give their value, `+` or `-` before at least one digit gives the signed value, and every other string gives NaN (None) |
| JsValue.ToNumber | server.js:34-35 | `Number(v)` is always a number or NaN. A number is unchanged. A string goes through the integer parse. `null`, `[]` and `false` give 0, `true` gives 1, and `undefined`, objects and other arrays give NaN |
| JsValue.ToNumberIdempotent | server.js:34-35 | Coercing an already coerced value changes nothing |
| JsValue.DecimalString | js/shop.js:165 | The decimal text of a clock reading is non-empty and all digits |
| JsValue.ParseDecimalRoundTrip | js/shop.js:159 | The decimal text of n coerces back to n |
| JsValue.TrimStart | server.js:34-35 | The trim inside `Number(...)`: the input is the result preceded by white space only, and the result does not start with white space |
| JsValue.TrimEnd | server.js:34-35 | The trim inside `Number(...)`: the input is the result followed by white space only, and the result does not end with white space |
| JsValue.LeadingWhitespaceSuffix | server.js:34-35 | What the leading trim keeps is a suffix of the input, and every character it cut off is white space |
| JsValue.TrailingWhitespacePrefix | server.js:34-35 | What the trailing trim keeps is a prefix of the input, and every character it cut off is white space |
| Shop.IndexOfKey | js/shop.js:88 | `findIndex` on the key gives the first line with that key, or -1 when no line has it |
| Shop.AddLine | js/shop.js:88-100 | For a key already present, only the first such line's qty goes up by 1 and the length is kept. A new key is appended at the end with qty 1 and the given title, label and price |
| Shop.IncLine | js/shop.js:62 | "+" raises qty at idx by 1 and changes no other field of that line. Every other line is unchanged |
| Shop.DecLine | js/shop.js:63 | "−" lowers qty at idx by 1 but never below 1 and changes no other field of that line. Every other line is unchanged |
| Shop.RemoveLine | js/shop.js:64 | Remove deletes exactly line idx and keeps the others in order |
| Shop.AddLineKeepsWellFormed | js/shop.js:88-100 | Add keeps keys unique and every qty ≥ 1 |
| Shop.IncLineKeepsWellFormed | js/shop.js:62 | "+" keeps keys unique and every qty ≥ 1 |
| Shop.DecLineKeepsWellFormed | js/shop.js:63 | "−" keeps keys unique and every qty ≥ 1 |
| Shop.RemoveLineKeepsWellFormed | js/shop.js:64 | Remove keeps keys unique and every qty ≥ 1 |
| Shop.BadgeCount | js/shop.js:23 | The `reduce` over qty: never negative when no qty is negative |
| Shop.Total | js/shop.js:26 | The `reduce` over price × qty: never negative when no price or qty is negative |
| Shop.Scaled | js/shop.js:26 | A line's amount, price × qty as repeated addition: never negative for a non-negative price and qty |
| Shop.ScaledIsProduct | js/shop.js:26 | The repeated addition equals price × qty for every integer qty |
| Shop.AmountOfOneMore | js/shop.js:26 | One more unit adds the unit price to a line's share of the total |
| Shop.BadgeCountConcat | js/shop.js:23 | The badge of two lists joined is the sum of their badges |
| Shop.TotalConcat | js/shop.js:26 | The total of two lists joined is the sum of their totals |
| Shop.ReplaceLineSums | js/shop.js:23-26 | Replacing one line changes badge and total by exactly that line's difference |
| Shop.SumsAroundLine | js/shop.js:23-26 | Badge and total split around any one line |
| Shop.AddLineSums | js/shop.js:85-102 | Add raises the badge by exactly 1. The total rises by the new line's price, or by the stored price of the line that was bumped |
| Shop.IncLineSums | js/shop.js:62 | "+" raises the badge by 1 and the total by the line's price |
| Shop.DecLineSums | js/shop.js:63 | "−" lowers the badge by 1 and the total by the price, or changes nothing when qty is 1 |
| Shop.RemoveLineSums | js/shop.js:64 | Remove takes the line's qty off the badge and its amount off the total |
| Shop.BadgeCountAtLeastLines | js/shop.js:23 | With every qty ≥ 1, the badge is at least the number of lines, so it is 0 exactly when the cart is empty |
| Shop.AddSameVariantTwice | js/shop.js:88-100 | Adding a new variant twice yields one line with qty 2, not two lines |
| Shop.ItemOf | js/shop.js:157-163 | One payload item: quantity = qty, name = title, the line's price, and variant_id the parsed number, or NaN exactly when the stored id does not parse |
| Shop.PayloadItems | js/shop.js:157-163 | One payload item per cart line, in cart order |
| Shop.BuildPayload | js/shop.js:146-167 | Each item has quantity = qty, name = title, the line's price and variant_id = `Number(variant_id)`. The recipient is the fixed placeholder, and external_id is "AURANEX-" followed by the clock reading in decimal |
| Shop.PayloadQuantityIsBadgeCount | js/shop.js:157-163 | The payload orders exactly as many units as the badge shows |
| Shop.DecimalVariantIdSentAsNumber | js/shop.js:159 | A variant id stored as the digits of n is sent as the number n |
| Shop.Cart.constructor | js/shop.js:3 | The cart starts from the stored list |
| Shop.Cart.Add | js/shop.js:85-102 | The cart becomes `AddLine` of the old cart, and the invariant is kept |
| Shop.Cart.Inc | js/shop.js:61-62 | The cart becomes `IncLine` of the old cart, and the invariant is kept |
| Shop.Cart.Dec | js/shop.js:61-63 | The cart becomes `DecLine` of the old cart, and the invariant is kept |
| Shop.Cart.Remove | js/shop.js:61-64 | The cart becomes `RemoveLine` of the old cart, and the invariant is kept |
| Shop.Cart.Clear | js/shop.js:117-121 | After clear the cart is empty and well formed, and badge and total are 0 |
| Shop.Cart.BeginCheckout | js/shop.js:124-132 | The handler up to its `await`: the payload is built from the cart as it is at the click, and orders exactly as many units as the badge shows. The cart is not touched |
| Shop.Cart.CompleteCheckout | js/shop.js:133-141 | The handler after its `await`: the cart as it is when the request settles is emptied exactly when the response is ok and its JSON parses, and is unchanged otherwise |
| Shop.Cart.Checkout | js/shop.js:124-141 | With nothing happening while the request is pending: the payload is built from the cart as it was, and the cart is emptied exactly when the response is ok and its JSON parses, and is unchanged otherwise |
| Shop.AddWhileCheckoutPending | js/shop.js:84-141 | An "Add to cart" while a checkout request is pending, which then succeeds: the order holds one unit fewer than the cart showed when the request settled, and the cart ends empty, so that unit is neither ordered nor kept |
| Shop.CheckoutClickedTwice | js/shop.js:124-132 | A second click while the first request is pending sends a second order for the same items and recipient |
| Shop.InsertCard | js/shop.js:182-188 | Inserting a card keeps the multiset of cards plus that card |
| Shop.InsertCardSorted | js/shop.js:182-188 | Inserting into a run sorted by price keeps it sorted |
| Shop.SortByPrice | js/shop.js:182-188 | The result is a permutation of the cards, sorted by price (or by negated price) |
| Shop.SortProducts | js/shop.js:179-190 | The result is a permutation in every mode: ascending for `price_low_high`, descending for `price_high_low`, and the order unchanged for any other mode |
| Shop.Shown | js/shop.js:194 | The filter's match test: every card for `all`, otherwise exactly the cards whose category is `cat` |
| Shop.DisplayFlags | js/shop.js:192-197 | A card is shown exactly when cat is `all` or equals its category |
| Shop.VisibleCards | js/shop.js:192-197 | The visible cards are exactly the cards the filter shows, each with its multiplicity |
| Shop.SortKeepsVisibleCards | js/shop.js:179-197 | Sorting never changes which cards the filter shows |
| Logistics.PricingMatrixSpeedsOrdered | js/logistics.js:10-19 | On every route the table lists, express costs more than standard and same-day, where offered, more than express |
| Logistics.DeliveryTime | js/logistics.js:22-26 | `deliveryTimes[speed]`: every speed has a non-empty promised time |
| Logistics.RouteRow | js/logistics.js:39-57 | A listed route uses its own row, an unlisted pair whose reverse is also unlisted uses the default row, and on the row used a faster speed always costs more |
| Logistics.SameDayRoute | js/logistics.js:212-215 | The four-route condition; it names only Lagos and Abuja |
| Logistics.RouteRowSymmetric | js/logistics.js:10-57 | The row a quote uses is the same in both directions of travel |
| Logistics.PricingMatrixSymmetric | js/logistics.js:10-19 | The table lists every route together with its reverse, at the same prices |
| Logistics.SameDayPricedIffEnabled | js/logistics.js:212-215 | A route has a same-day price exactly when the option rule enables same-day delivery on it |
| Logistics.Ceil | js/logistics.js:68 | `Math.ceil` gives the least integer at or above its argument |
| Logistics.Surcharge | js/logistics.js:64-70 | The surcharge is 0 exactly for weights ≤ 5 kg. Otherwise it is 200 per started kilogram over 5 |
| Logistics.SurchargeMonotone | js/logistics.js:64-70 | A heavier parcel never gets a smaller surcharge |
| Logistics.CalculateQuote | js/logistics.js:28-75 | The result is an error exactly when pickup, delivery or speed is empty or the weight is zero or NaN. It is "not available" exactly for same-day outside the four enabled routes. Otherwise the quote is the route row's price plus the surcharge (so it is never below the base), with the speed's delivery time |
| Logistics.QuoteSymmetric | js/logistics.js:39-57 | Swapping pickup and delivery gives the same quote |
| Logistics.QuoteMonotoneInWeight | js/logistics.js:64-70 | On the same route and speed, a heavier parcel is never quoted less |
| Logistics.SpeedSelect.constructor | js/logistics.js:202 | The select starts with the given value and same-day options |
| Logistics.SpeedSelect.UpdateDeliveryOptions | js/logistics.js:204-231 | With either location empty nothing changes. On the four routes every same-day option is enabled. Elsewhere every same-day option is disabled and a selected same-day is reset to empty. Afterwards the selected speed never yields "same-day not available" |
| Logistics.StripNonPhoneChars | js/logistics.js:176 | The result holds only `+`, digits and white space. A single allowed character is kept and a single other character is dropped |
| Logistics.StripConcat | js/logistics.js:176 | Stripping a concatenation strips each part and keeps their order, so with the one-character case the strip keeps exactly the allowed characters, in order |
| Logistics.StripKeepsPhoneChars | js/logistics.js:176 | A string of allowed characters is left as it is |
| Logistics.NormalizePhone | js/logistics.js:174-181 | The output is the stripped input, or `+234` followed by it; it is the stripped input unchanged exactly when that is empty or starts with `+234` or `0`. Non-empty output starts with `+234` or `0` |
| Logistics.NormalizePhoneIdempotent | js/logistics.js:174-181 | Normalising twice equals normalising once |
| Logistics.ClampWeight | js/logistics.js:187-195 | Values below 0.1 become 0.1 and values above 1000 become 1000. In-range values and NaN are unchanged |
| Logistics.ClampWeightIdempotent | js/logistics.js:187-195 | Clamping a clamped weight changes nothing |
| AdminAuth.AuthenticateUser | admin/js/admin-auth.js:86-110 | Success exactly for admin / xharlez2024, with the administrator user and the fabricated token. Otherwise failure with a message |
| AdminAuth.IsStale | admin/js/admin-auth.js:152 | More than 24 h have passed: a stale entry lies in the past, and an entry at most 24 h old is not stale |
| AdminAuth.StaleStaysStale | admin/js/admin-auth.js:152 | An entry stale at one moment is stale at every later one |
| AdminAuth.Preferred | admin/js/admin-auth.js:145-149 | The session entry when there is one, else the local entry. Nothing only when both slots are empty |
| AdminAuth.ReadAuth | admin/js/admin-auth.js:144-158 | A read returns the preferred entry only while it is fresh (at most 24 h old), leaving the slots alone. A stale preferred entry empties both slots and reads as null |
| AdminAuth.ReadAuthIdempotent | admin/js/admin-auth.js:144-158 | A second read at the same moment sees what the first one saw |
| AdminAuth.StaleSessionWipesLocal | admin/js/admin-auth.js:148-154 | A stale session entry logs out even when the local slot holds a fresh entry |
| AdminAuth.Login | admin/js/admin-auth.js:26-84 | Empty fields alert and write nothing. A rejected login writes nothing. A successful one writes exactly one slot: local when remembered, session otherwise. It then alerts success and redirects to the dashboard |
| AdminAuth.SessionLoginReadBack | admin/js/admin-auth.js:53-158 | A login that is not remembered is read back for the next 24 h, the 24th hour included |
| AdminAuth.RememberedLoginReadBack | admin/js/admin-auth.js:53-158 | A remembered login is read back unless a session entry exists, which shadows it |
| AdminAuth.OnLoginPage | admin/js/admin-auth.js:132 | `pathname.includes('login.html')`; such a path is at least as long as `login.html` |
| AdminAuth.RedirectFor | admin/js/admin-auth.js:128-142 | Go to the dashboard exactly on the login page with a session. Go to login exactly on another page without one. Otherwise stay |
| AdminAuth.CheckStatus | admin/js/admin-auth.js:128-158 | The status check reads (possibly logging out) and then redirects by the rule. A dashboard redirect happens only with a fresh session. No redirect happens exactly on the login page with no entry, or on another page with a fresh one. A stale entry always sends the page to login, on the login page too, where `logout()` navigates there |
| AdminAuth.CheckStatusSettles | admin/js/admin-auth.js:128-142 | After a redirect, the status check on the target page makes no further redirect |
| AdminAuth.Gate.constructor | admin/js/admin-auth.js:3-10 | Page load runs the status check on the stored slots |
| AdminAuth.Gate.HandleLogin | admin/js/admin-auth.js:26-84 | Slots, alert and redirect become what `Login` prescribes |
| AdminAuth.Gate.Logout | admin/js/admin-auth.js:160-164 | Both slots are emptied and the page goes to login |
| AdminAuth.Gate.GetAuthData | admin/js/admin-auth.js:144-158 | Returns and stores what `ReadAuth` prescribes. A stale entry also navigates to login |
| AdminAuth.Gate.CheckAuthStatus | admin/js/admin-auth.js:128-142 | Slots and redirect become what `CheckStatus` prescribes |
| Slideshow.ClampIndex | js/slideshow.js:56-59 | The index always lands in [0, len), and an in-range index is kept |
| Slideshow.NextIndex | js/slideshow.js:56-76 | Next moves by +1, and from the last slide goes to 0 |
| Slideshow.PrevIndex | js/slideshow.js:56-82 | Prev moves by −1, and from slide 0 goes to len−1 |
| Slideshow.NextPrevInverse | js/slideshow.js:72-82 | Next then prev, and prev then next, return to the start |
| Slideshow.GoToIsNotModular | js/slideshow.js:56-88 | Any n ≥ len lands on 0 and any negative n on len−1. For len ≥ 2, index len+1 lands where `%` would not |
| Slideshow.SwipeAction | js/slideshow.js:125-136 | No change exactly when the swipe moves at most 50. A leftward swipe goes next and a rightward one goes prev |
| Slideshow.SwipeAntisymmetric | js/slideshow.js:125-136 | A swipe in the opposite direction has the opposite effect |
| Slideshow.ContainerHeight | js/slideshow.js:151-163 | 200 px for width ≤ 480, 250 px up to 768, 400 px beyond |
| Slideshow.ContainerHeightMonotone | js/slideshow.js:151-163 | A wider viewport never gets a shorter slideshow |
| Slideshow.ServiceSlideshow.constructor | js/slideshow.js:3-29 | A new slideshow is at index 0 and shows its first slide |
| Slideshow.ServiceSlideshow.ShowSlide | js/slideshow.js:43-70 | With no slides nothing changes. Otherwise the index becomes the wrapped n, and a slide or dot is active exactly when its index is the current one |
| Slideshow.ServiceSlideshow.NextSlide | js/slideshow.js:72-76 | The index becomes `NextIndex` with exactly that slide and dot active. With no slides the counter keeps the raw +1 |
| Slideshow.ServiceSlideshow.PrevSlide | js/slideshow.js:78-82 | The index becomes `PrevIndex` with exactly that slide and dot active. With no slides the counter keeps the raw −1 |
| Slideshow.ServiceSlideshow.GoToSlide | js/slideshow.js:84-88 | The index becomes the clamped n with exactly that slide and dot active |
| Slideshow.ServiceSlideshow.HandleSwipe | js/slideshow.js:125-136 | Steps next or prev as `SwipeAction` decides, with exactly that slide and dot active; without slides the counter keeps the raw ±1 and no flag changes. A short swipe changes nothing |
| Slideshow.Registry.constructor | js/slideshow.js:168 | The registry starts empty |
| Slideshow.Registry.Lookup | js/slideshow.js:171-185 | A slideshow is created from the given elements (which no other slideshow uses) only when the type has none. An existing one is reused with its state. Every registered slideshow stays the same object with its index and flags |
| Slideshow.Registry.Step | js/slideshow.js:175-179 | The registered slideshow steps forward or back with exactly that slide and dot active (raw ±1 without slides); every other slideshow and its flags are unchanged |
| Slideshow.Registry.GoTo | js/slideshow.js:187 | The registered slideshow goes to the clamped n with exactly that slide and dot active (raw n without slides); every other slideshow and its flags are unchanged |
| Slideshow.Registry.ChangeSlide | js/slideshow.js:170-180 | Direction 1 steps that type's slideshow forward and any other direction steps it back, starting from its old index (or 0 when new), with exactly that slide and dot active; without slides the counter keeps the raw ±1. A new slideshow uses the given elements. Every other slideshow stays the same object with its index and flags unchanged |
| Slideshow.Registry.CurrentSlide | js/slideshow.js:182-188 | Dot k shows slide k−1 (clamped), with exactly that slide and dot active; without slides the counter is the raw k−1. A new slideshow uses the given elements. Every other slideshow stays the same object with its index and flags unchanged |
| Lifestyle.NextIndex | js/lifestyle.js:24-27 | (i+1) mod len stays in [0, len), moves by +1, and wraps from the last item to 0 |
| Lifestyle.PrevIndex | js/lifestyle.js:29-32 | (i−1+len) mod len stays in [0, len), moves by −1, and wraps from 0 to len−1 |
| Lifestyle.NextPrevInverse | js/lifestyle.js:24-32 | Prev after next, and next after prev, restore the index |
| Lifestyle.AgreesWithClampWrap | js/lifestyle.js:24-32 | On in-range indices the modular wrap and the slideshows' clamp wrap take the same step |
| Lifestyle.Advance | js/lifestyle.js:24-47 | Any number of autoplay ticks stays in range |
| Lifestyle.AdvanceInRange | js/lifestyle.js:24-47 | Short of the end, k ticks move the slider k places |
| Lifestyle.AdvanceAdd | js/lifestyle.js:24-47 | a ticks then b ticks equal a+b ticks |
| Lifestyle.FullCycleReturns | js/lifestyle.js:24-47 | After as many ticks as there are testimonials, the slider is back where it started |
| Lifestyle.TestimonialSlider.constructor | js/lifestyle.js:2-4 | The slider starts at index 0 |
| Lifestyle.TestimonialSlider.ShowSlide | js/lifestyle.js:8-22 | Every item is active exactly when its index is the shown one. The shown dot is set only when the item exists. The call completes exactly when the index exists in both lists |
| Lifestyle.TestimonialSlider.NextSlide | js/lifestyle.js:24-27 | The index becomes `NextIndex`, with exactly that item and dot active when the dot exists |
| Lifestyle.TestimonialSlider.PrevSlide | js/lifestyle.js:29-32 | The index becomes `PrevIndex`, with exactly that item and dot active when the dot exists |
| Lifestyle.TestimonialSlider.ClickDot | js/lifestyle.js:39-44 | Dot k sets the index to k and shows item k when it exists |
| CheckoutServer.ValidPayload | server.js:28 | The guard; a body that passes is an object with recipient and items fields |
| CheckoutServer.NormaliseItem | server.js:33-38 | A normalised item has exactly the fields variant_id, quantity, retail_price and name. variant_id and quantity are `Number(...)` of the posted ones (numbers kept), and price and name pass through |
| CheckoutServer.NormaliseItems | server.js:33-38 | Fails (TypeError) exactly when some item is null or undefined. Otherwise the result has the same length and order, each item normalised |
| CheckoutServer.NormaliseItemIdempotent | server.js:33-38 | Normalising a normalised item changes nothing |
| CheckoutServer.NormaliseItemsIdempotent | server.js:33-38 | Normalising a normalised list changes nothing |
| CheckoutServer.NormalisedAreFixed | server.js:33-38 | A list of normal-form items is its own normal form |
| CheckoutServer.ErrorResponse | server.js:55-60 | The status is the provider's when truthy, else 500. The body is the provider's when truthy, else the generic error |
| CheckoutServer.HandleCheckout | server.js:23-61 | An invalid body gets 400 and no provider call. A null item gets 500. Otherwise the forwarded payload keeps every field but items and has the items normalised. Provider success gives 200 `{ok: true, data}`, and failure gives `ErrorResponse` |
| CheckoutServer.ForwardedIsNormal | server.js:28-38 | What the route forwards passes its own guard and would be forwarded as is |
| CheckoutServer.ServerResponse.constructor | server.js:23 | A fresh response has status 200 and no body |
| CheckoutServer.ServerResponse.Status | server.js:29-59 | Sets the status only |
| CheckoutServer.ServerResponse.Json | server.js:29-59 | Sets the body only |
| CheckoutServer.Checkout | server.js:23-61 | Forwards and responds exactly as `HandleCheckout` prescribes |
| CheckoutFlow.JsonNumber | js/shop.js:131 | JSON text turns NaN into null and leaves numbers alone |
| CheckoutFlow.WireItem | js/shop.js:157-163 | A sent item has exactly the four fields the route keeps: variant_id as JSON writes the coerced id (NaN as null), quantity, the price and the name |
| CheckoutFlow.WireItems | js/shop.js:157-163 | One sent item per payload item, in order |
| CheckoutFlow.ToWire | js/shop.js:126-131 | The sent body has recipient, items and external_id, and no other field |
| CheckoutFlow.BrowserSees | js/shop.js:133-134 | `fetch` reports ok exactly for a 2xx status |
| CheckoutFlow.EmptyCartRejected | server.js:28-30 | Checking out an empty cart gets 400, makes no provider call and keeps the cart |
| CheckoutFlow.WireItemIsNormal | server.js:33-38 | An item the shop sends with a numeric id is already in the route's normal form |
| CheckoutFlow.ShopPayloadForwardedUnchanged | server.js:33-43 | When every variant id is numeric, the provider receives exactly the body the shop sent |
| CheckoutFlow.NonNumericIdForwardedAsZero | server.js:34 | A non-numeric variant id reaches the provider as 0 (NaN becomes null in JSON, and `Number(null)` is 0) |
| CheckoutFlow.CartClearedIffOrderCreated | server.js:54-60 | For a non-empty cart, the cart is emptied exactly when the provider created the order |

## Left out

- DOM rendering and UI wiring are not modelled: cart HTML, the modal, alert boxes, scrolling, the password visibility toggle, fade-in animations and keyboard listeners. "Active" classes are boolean flags, alerts are a field, and navigation is a `redirect` field.
- Timers are not modelled: autoplay intervals, pause on hover or visibility, the 1-second simulated login delay and the 1.5-second redirect delay. The effect that follows a delay is applied at once.
- Local and session storage serialisation is not modelled. Each store is a field, and the cart starts from a given list.
- HTTP is not modelled: `fetch`, axios, Express routing, CORS, static serving and dotenv. The provider's answer and the browser's fetch outcome are inputs. The shop's checkout `await` is modelled as two steps (`Shop.Cart.BeginCheckout`, `Shop.Cart.CompleteCheckout`) between which cart operations may run; other interleavings of page events are not modelled. The startup warning for a missing API key is not modelled; the route itself performs no credential check.
- Clock reads are parameters (`now`), and so is the login token derived from the clock.
- Number formatting is not modelled: `toFixed(2)`, `toLocaleString` and `currency()`. Prices are exact reals, and the sent `retail_price` is the exact price rather than its two-decimal text. The route passes that field through unchanged whatever it holds.
- `JsValue.ParseNumber`: covers integer syntax only (optional sign, decimal digits, surrounding white space). Decimals, exponents, hex and `Infinity` read as NaN. Single-element arrays are NaN rather than their element's number.
- Product prices that coerce to NaN are not modelled, since card prices are reals. Neither is the sort comparator's behaviour on them.
- `Shop.SortProducts`: does not state that equal prices keep their relative order (stability).
- Route keys are pairs (pickup, delivery) rather than hyphen-joined strings. This assumes that no pickup or delivery option value makes two different pairs join to the same `pickup-delivery` string.
- `Logistics.CalculateQuote`: an unknown speed yields `UnknownSpeed`. On the page the base price is then `undefined`: for weights over 5 kg the cost shows "₦NaN", and for lighter parcels `toLocaleString` on `undefined` throws, so no quote is shown.
- The WhatsApp pickup request builder and its `window.open` call are not modelled (js/logistics.js:82-117), nor the smooth scrolling and fade-in code.
- The weight limit alert is not modelled; only the clamped value is.
- The global `logout()` wrapper and its confirmation dialog are not modelled (admin/js/admin-auth.js:195-200).
- The login handler's catch branch is not modelled (admin/js/admin-auth.js:76-78). `authenticateUser` never rejects, so the branch is reached only when a storage write throws (storage full or disabled), and the model has no failing storage.
- The registry's first population on page load is not modelled (js/slideshow.js:191-200). It creates the same instances `Lookup` would.
- Slide lists shared by several slideshows (the global `.slide` fallback) are not modelled. Each slideshow's flags are its own arrays, distinct from its dots and from every other registered slideshow's arrays, which the registry's invariant states.
- The testimonial slider with an empty list is not modelled. The modulo there yields NaN, and the slider requires at least one item.
- js/script.js is not part of this model (nav toggling, scroll styling and a form highlighter).
- Credential checks are not modelled, because server.js has none: there are no OAuth routes, and the route always sends `Bearer ${PRINTFUL_API_KEY}` to the provider, even when the key is unset.
- The provider's status on success is not relayed, because server.js does not relay it: a success answers 200 with `{ok: true, data}`, which is what `CheckoutServer.HandleCheckout` states.

=== FILE: admin_auth.dfy ===
/**
 * The admin area's session gate: a demo credential check, a login form
 * that writes the session to exactly one of two storage slots, a reader
 * that prefers the session slot and expires entries after 24 hours, and
 * the redirect rule between the login page and the protected pages.
 * Time is a parameter (milliseconds since the epoch), as is the token the
 * credential check would fabricate from the clock.
 */
module AdminAuth {
  import opened Wrappers

  datatype User = User(id: int, username: string, name: string, role: string)

  /** The one account the demo check knows. */
  const AdminUser: User := User(1, "admin", "Administrator", "super_admin")

  datatype AuthResponse = Success(token: string, user: User) | Failure(message: string)

  /** `authenticateUser`: only admin / xharlez2024 gets in. */
  function AuthenticateUser(username: string, password: string, token: string): (r: AuthResponse)
    ensures r.Success? <==> username == "admin" && password == "xharlez2024"
    ensures r.Success? ==> r.user == AdminUser && r.token == token
    ensures r.Failure? ==> r.message != []
  {
    if username == "admin" && password == "xharlez2024" then
      Success(token, AdminUser)
    else
      Failure("Invalid username or password")
  }

  /** What a storage slot holds under the key `adminAuth`. */
  datatype AuthData = AuthData(token: string, user: User, timestamp: int)

  /** The session store and the local store. */
  datatype Slots = Slots(session: Option<AuthData>, local: Option<AuthData>)

  const EmptySlots: Slots := Slots(None, None)

  /** 24 hours in milliseconds. */
  const SessionLifetimeMs: int := 24 * 60 * 60 * 1000

  /** An entry is stale once strictly more than 24 hours have passed. */
  predicate IsStale(entry: AuthData, now: int)
    ensures IsStale(entry, now) ==> now > entry.timestamp
    ensures now <= entry.timestamp + SessionLifetimeMs ==> !IsStale(entry, now)
  {
    now - entry.timestamp > SessionLifetimeMs
  }

  /** Staleness is permanent: an entry stale at one moment is stale at
      every later one. */
  lemma StaleStaysStale(entry: AuthData, t1: int, t2: int)
    requires t1 <= t2 && IsStale(entry, t1)
    ensures IsStale(entry, t2)
  {
  }

  /** The entry `getAuthData` looks at: the session slot's, else the local slot's. */
  function Preferred(slots: Slots): (r: Option<AuthData>)
    ensures slots.session.Some? ==> r == slots.session
    ensures slots.session.None? ==> r == slots.local
    ensures r.None? <==> slots == EmptySlots
  {
    if slots.session.Some? then slots.session else slots.local
  }

  datatype ReadResult = ReadResult(data: Option<AuthData>, slots: Slots)

  /** `getAuthData`: the preferred entry when fresh; a stale one logs out,
      which empties both slots, and reads as null. */
  function ReadAuth(slots: Slots, now: int): (r: ReadResult)
    ensures r.data.Some? ==> r.data == Preferred(slots) && !IsStale(r.data.value, now) && r.slots == slots
    ensures Preferred(slots).Some? && !IsStale(Preferred(slots).value, now) ==> r.data.Some?
    ensures r.data.None? && Preferred(slots).Some? ==> IsStale(Preferred(slots).value, now) && r.slots == EmptySlots
    ensures Preferred(slots).None? ==> r == ReadResult(None, slots)
  {
    match Preferred(slots)
    case None => ReadResult(None, slots)
    case Some(entry) =>
      if IsStale(entry, now) then ReadResult(None, EmptySlots) else ReadResult(Some(entry), slots)
  }

  /** A second read at the same moment sees what the first one saw. */
  lemma ReadAuthIdempotent(slots: Slots, now: int)
    ensures ReadAuth(ReadAuth(slots, now).slots, now) == ReadAuth(slots, now)
  {
  }

  /** A stale session entry logs out even when the local slot holds a
      fresh entry: the local entry is never consulted. */
  lemma StaleSessionWipesLocal(slots: Slots, now: int)
    requires slots.session.Some? && IsStale(slots.session.value, now)
    ensures ReadAuth(slots, now) == ReadResult(None, EmptySlots)
  {
  }

  datatype Alert = Alert(message: string, kind: string)

  datatype LoginResult = LoginResult(slots: Slots, alert: Alert, redirect: Option<string>)

  /** `handleLogin` as a step on the slots. `token` is what the credential
      check fabricates and `now` the moment the entry is stamped. */
  function Login(slots: Slots, username: string, password: string, rememberMe: bool,
                 token: string, now: int): (r: LoginResult)
    ensures username == "" || password == "" ==>
              r == LoginResult(slots, Alert("Please fill in all fields", "danger"), None)
    ensures r.redirect.Some? <==> username == "admin" && password == "xharlez2024"
    ensures r.redirect.None? ==> r.slots == slots && r.alert.kind == "danger"
    ensures r.redirect.Some? ==>
              && r.redirect == Some("dashboard.html")
              && r.alert == Alert("Login successful! Redirecting...", "success")
              && (rememberMe ==> r.slots == slots.(local := Some(AuthData(token, AdminUser, now))))
              && (!rememberMe ==> r.slots == slots.(session := Some(AuthData(token, AdminUser, now))))
  {
    if username == "" || password == "" then
      LoginResult(slots, Alert("Please fill in all fields", "danger"), None)
    else
      match AuthenticateUser(username, password, token)
      case Failure(message) =>
        LoginResult(slots, Alert(if message != [] then message else "Invalid credentials", "danger"), None)
      case Success(tok, user) =>
        var entry := AuthData(tok, user, now);
        var slots' := if rememberMe then slots.(local := Some(entry)) else slots.(session := Some(entry));
        LoginResult(slots', Alert("Login successful! Redirecting...", "success"), Some("dashboard.html"))
  }

  /** A login that is not remembered is what the next read returns for a
      whole day, up to and including the 24th hour. */
  lemma SessionLoginReadBack(slots: Slots, token: string, t: int, now: int)
    requires t <= now <= t + SessionLifetimeMs
    ensures ReadAuth(Login(slots, "admin", "xharlez2024", false, token, t).slots, now).data
            == Some(AuthData(token, AdminUser, t))
  {
  }

  /** A remembered login is read back only when no session entry shadows
      it; a session entry from an earlier login wins. */
  lemma RememberedLoginReadBack(slots: Slots, token: string, t: int, now: int)
    requires t <= now <= t + SessionLifetimeMs
    ensures slots.session.None? ==>
              ReadAuth(Login(slots, "admin", "xharlez2024", true, token, t).slots, now).data
              == Some(AuthData(token, AdminUser, t))
    ensures slots.session.Some? ==>
              ReadAuth(Login(slots, "admin", "xharlez2024", true, token, t).slots, now)
              == ReadAuth(slots.(local := Some(AuthData(token, AdminUser, t))), now)
              && Preferred(Login(slots, "admin", "xharlez2024", true, token, t).slots) == slots.session
  {
  }

  /** `window.location.pathname.includes('login.html')`. */
  predicate OnLoginPage(path: string)
    ensures OnLoginPage(path) ==> |path| >= |"login.html"|
  {
    Contains(path, "login.html")
  }

  predicate Contains(s: string, t: string)
    decreases |s|
  {
    if |s| < |t| then false
    else s[..|t|] == t || Contains(s[1..], t)
  }

  /** The redirect `checkAuthStatus` makes, if any. */
  function RedirectFor(onLoginPage: bool, authenticated: bool): (r: Option<string>)
    ensures r == Some("dashboard.html") <==> onLoginPage && authenticated
    ensures r == Some("login.html") <==> !onLoginPage && !authenticated
    ensures r.None? <==> onLoginPage != authenticated
  {
    if onLoginPage && authenticated then Some("dashboard.html")
    else if !onLoginPage && !authenticated then Some("login.html")
    else None
  }

  datatype StatusResult = StatusResult(slots: Slots, redirect: Option<string>)

  /** `checkAuthStatus` on page load: read (possibly logging out, which
      itself navigates to the login page), then redirect by the rule. */
  function CheckStatus(slots: Slots, path: string, now: int): (r: StatusResult)
    ensures r.slots == ReadAuth(slots, now).slots
    ensures RedirectFor(OnLoginPage(path), ReadAuth(slots, now).data.Some?).Some? ==>
              r.redirect == RedirectFor(OnLoginPage(path), ReadAuth(slots, now).data.Some?)
    ensures r.redirect == Some("dashboard.html") ==> OnLoginPage(path) && ReadAuth(slots, now).data.Some?
    ensures Preferred(slots).Some? && IsStale(Preferred(slots).value, now) ==> r.redirect == Some("login.html")
    ensures r.redirect.None? <==>
              || (Preferred(slots).None? && OnLoginPage(path))
              || (Preferred(slots).Some? && !IsStale(Preferred(slots).value, now) && !OnLoginPage(path))
  {
    var read := ReadAuth(slots, now);
    var loggedOut := read.data.None? && Preferred(slots).Some?;
    var decision := RedirectFor(OnLoginPage(path), read.data.Some?);
    StatusResult(read.slots,
                 if decision.Some? then decision else if loggedOut then Some("login.html") else None)
  }

  /** The login page and the protected pages never bounce a visitor back
      and forth: after one status check, a second at the same moment on
      the page it sent them to makes no further redirect. */
  lemma CheckStatusSettles(slots: Slots, path: string, now: int)
    requires CheckStatus(slots, path, now).redirect.Some?
    ensures var r := CheckStatus(slots, path, now);
            CheckStatus(r.slots, r.redirect.value, now).redirect.None?
  {
    var r := CheckStatus(slots, path, now);
    assert OnLoginPage("login.html") by {
      assert "login.html"[..10] == "login.html";
    }
    assert !OnLoginPage("dashboard.html") by {
      var d := "dashboard.html";
      assert d[..10][0] != 'l';
      assert d[1..][..10][0] != 'l';
      assert d[2..][..10][0] != 'l';
      assert d[3..][..10][0] != 'l';
      assert d[4..][..10][0] != 'l';
      assert |d[5..]| < 10;
    }
  }

  /** The admin page's authentication object: the two storage slots, the
      last alert shown and the last navigation requested. */
  class Gate {
    var sessionSlot: Option<AuthData>
    var localSlot: Option<AuthData>
    var alert: Option<Alert>
    var redirect: Option<string>

    function Stored(): Slots
      reads this
    {
      Slots(sessionSlot, localSlot)
    }

    /** Page load: the object starts from what the stores hold and runs the
        status check on the current path. */
    constructor (stored: Slots, path: string, now: int)
      ensures Stored() == CheckStatus(stored, path, now).slots
      ensures redirect == CheckStatus(stored, path, now).redirect
      ensures alert.None?
    {
      sessionSlot := stored.session;
      localSlot := stored.local;
      alert := None;
      redirect := None;
      new;
      CheckAuthStatus(path, now);
    }

    method HandleLogin(username: string, password: string, rememberMe: bool, token: string, now: int)
      modifies this
      ensures Stored() == Login(old(Stored()), username, password, rememberMe, token, now).slots
      ensures alert == Some(Login(old(Stored()), username, password, rememberMe, token, now).alert)
      ensures Login(old(Stored()), username, password, rememberMe, token, now).redirect.Some? ==>
                redirect == Login(old(Stored()), username, password, rememberMe, token, now).redirect
      ensures Login(old(Stored()), username, password, rememberMe, token, now).redirect.None? ==>
                redirect == old(redirect)
    {
      if username == "" || password == "" {
        alert := Some(Alert("Please fill in all fields", "danger"));
        return;
      }
      var response := AuthenticateUser(username, password, token);
      if response.Success? {
        var entry := AuthData(response.token, response.user, now);
        if rememberMe {
          localSlot := Some(entry);
        } else {
          sessionSlot := Some(entry);
        }
        alert := Some(Alert("Login successful! Redirecting...", "success"));
        redirect := Some("dashboard.html");
      } else {
        var message := if response.message != [] then response.message else "Invalid credentials";
        alert := Some(Alert(message, "danger"));
      }
    }

    method Logout()
      modifies this
      ensures Stored() == EmptySlots && redirect == Some("login.html") && alert == old(alert)
    {
      sessionSlot := None;
      localSlot := None;
      redirect := Some("login.html");
    }

    method GetAuthData(now: int) returns (data: Option<AuthData>)
      modifies this
      ensures data == ReadAuth(old(Stored()), now).data
      ensures Stored() == ReadAuth(old(Stored()), now).slots
      ensures data.None? && old(Preferred(Stored())).Some? ==> redirect == Some("login.html")
      ensures data.Some? || old(Preferred(Stored())).None? ==> redirect == old(redirect)
      ensures alert == old(alert)
    {
      data := if sessionSlot.Some? then sessionSlot else localSlot;
      if data.Some? && now - data.value.timestamp > SessionLifetimeMs {
        Logout();
        data := None;
      }
    }

    method CheckAuthStatus(path: string, now: int)
      modifies this
      ensures Stored() == CheckStatus(old(Stored()), path, now).slots
      ensures CheckStatus(old(Stored()), path, now).redirect.Some? ==>
                redirect == CheckStatus(old(Stored()), path, now).redirect
      ensures CheckStatus(old(Stored()), path, now).redirect.None? ==> redirect == old(redirect)
      ensures alert == old(alert)
    {
      var data := GetAuthData(now);
      var onLogin := OnLoginPage(path);
      if onLogin && data.Some? {
        redirect := Some("dashboard.html");
        return;
      }
      if !onLogin && data.None? {
        redirect := Some("login.html");
        return;
      }
    }
  }
}

=== FILE: checkout_flow.dfy ===
/**
 * The shop page and the checkout route together: the payload the cart
 * builds travels as JSON to the route, and the route's response decides
 * whether the cart is emptied.
 */
module CheckoutFlow {
  import opened Wrappers
  import opened JsValue
  import Shop
  import CheckoutServer

  /** A coerced number after `JSON.stringify` and the server's JSON parse:
      NaN is written as `null`. */
  function JsonNumber(v: Value): (r: Value)
    ensures (v.Num? || v.NaN?) ==> r.Num? || r.Null?
    ensures v.NaN? ==> r == Null
    ensures !v.NaN? ==> r == v
  {
    if v.NaN? then Null else v
  }

  /** One payload item as the server receives it. The price is carried as
      the exact amount rather than its two-decimal text. */
  function WireItem(item: Shop.PayloadItem): (r: Value)
    ensures r.Obj? && r.fields.Keys == CheckoutServer.ItemFields
    ensures Prop(r, "quantity") == Num(item.quantity as real) && Prop(r, "name") == Str(item.name)
    ensures Prop(r, "variant_id") == JsonNumber(item.variantId)
    ensures Prop(r, "retail_price") == Num(item.retailPrice)
  {
    Obj(map[
      "variant_id" := JsonNumber(item.variantId),
      "quantity" := Num(item.quantity as real),
      "retail_price" := Num(item.retailPrice),
      "name" := Str(item.name)])
  }

  function WireItems(items: seq<Shop.PayloadItem>): (r: seq<Value>)
    ensures |r| == |items| && forall k :: 0 <= k < |items| ==> r[k] == WireItem(items[k])
  {
    seq(|items|, k requires 0 <= k < |items| => WireItem(items[k]))
  }

  /** The request body the route receives for a payload the shop built. */
  function ToWire(p: Shop.OrderPayload): (r: Value)
    ensures r.Obj? && r.fields.Keys == {"recipient", "items", "external_id"}
    ensures Prop(r, "recipient") == p.recipient
    ensures Prop(r, "items") == Arr(WireItems(p.items))
  {
    Obj(map["recipient" := p.recipient, "items" := Arr(WireItems(p.items)), "external_id" := Str(p.externalId)])
  }

  /** How `fetch` sees the route's answer: ok for a 2xx status, and the
      body is always JSON. */
  function BrowserSees(resp: CheckoutServer.Response): (r: Shop.FetchOutcome)
    ensures r.Responded? && r.jsonBody
    ensures r.ok <==> 200 <= resp.status < 300
  {
    Shop.Responded(200 <= resp.status < 300, true)
  }

  predicate NumericIds(lines: seq<Shop.CartItem>) {
    forall k :: 0 <= k < |lines| ==> ParseNumber(lines[k].variantId).Some?
  }

  /** A non-empty cart's body passes the route's guard, and none of its
      items is null or undefined. */
  lemma WireAccepted(lines: seq<Shop.CartItem>, now: nat)
    requires lines != []
    ensures var wire := ToWire(Shop.BuildPayload(lines, now));
            && CheckoutServer.ValidPayload(wire)
            && Prop(wire, "items") == Arr(WireItems(Shop.BuildPayload(lines, now).items))
            && CheckoutServer.NormaliseItems(WireItems(Shop.BuildPayload(lines, now).items)).Some?
  {
    var items := WireItems(Shop.BuildPayload(lines, now).items);
    assert forall k :: 0 <= k < |items| ==> !Nullish(items[k]);
  }

  /** Checking out an empty cart is refused before the provider is called,
      and the (empty) cart is kept. */
  lemma EmptyCartRejected(now: nat, upstream: CheckoutServer.Upstream)
    ensures var r := CheckoutServer.HandleCheckout(ToWire(Shop.BuildPayload([], now)), upstream);
            && r == CheckoutServer.Exchange(None, CheckoutServer.Response(400, CheckoutServer.InvalidPayloadError))
            && !Shop.CheckoutSucceeds(BrowserSees(r.response))
  {
    var wire := ToWire(Shop.BuildPayload([], now));
    assert !CheckoutServer.ValidPayload(wire);
  }

  lemma WireItemIsNormal(line: Shop.CartItem)
    requires ParseNumber(line.variantId).Some?
    ensures CheckoutServer.NormaliseItem(WireItem(Shop.ItemOf(line))) == WireItem(Shop.ItemOf(line))
  {
    var item := Shop.ItemOf(line);
    assert item.variantId.Num?;
    var w := WireItem(item);
    var n := CheckoutServer.NormaliseItem(w);
    assert n.fields["variant_id"] == w.fields["variant_id"];
    assert n.fields["quantity"] == w.fields["quantity"];
    assert n.fields["retail_price"] == w.fields["retail_price"];
    assert n.fields["name"] == w.fields["name"];
    assert n.fields == w.fields;
  }

  /** When every stored variant id is a number, the route forwards to the
      provider exactly the body the shop sent. */
  lemma ShopPayloadForwardedUnchanged(lines: seq<Shop.CartItem>, now: nat, upstream: CheckoutServer.Upstream)
    requires lines != [] && NumericIds(lines)
    ensures CheckoutServer.HandleCheckout(ToWire(Shop.BuildPayload(lines, now)), upstream).forwarded
            == Some(ToWire(Shop.BuildPayload(lines, now)))
  {
    var p := Shop.BuildPayload(lines, now);
    var wire := ToWire(p);
    var items := WireItems(p.items);
    WireAccepted(lines, now);
    forall k | 0 <= k < |items|
      ensures !Nullish(items[k]) && CheckoutServer.NormaliseItem(items[k]) == items[k]
    {
      assert p.items[k] == Shop.ItemOf(lines[k]);
      WireItemIsNormal(lines[k]);
    }
    CheckoutServer.NormalisedAreFixed(items);
    assert wire.fields["items" := Arr(items)] == wire.fields;
  }

  /** A stored variant id that is not a number reaches the provider as 0:
      the browser writes the NaN as null and the route coerces null to 0. */
  lemma NonNumericIdForwardedAsZero(lines: seq<Shop.CartItem>, now: nat, upstream: CheckoutServer.Upstream, k: int)
    requires lines != [] && 0 <= k < |lines| && ParseNumber(lines[k].variantId).None?
    ensures var r := CheckoutServer.HandleCheckout(ToWire(Shop.BuildPayload(lines, now)), upstream);
            && r.forwarded.Some?
            && Prop(Prop(r.forwarded.value, "items").elems[k], "variant_id") == Num(0.0)
  {
    var p := Shop.BuildPayload(lines, now);
    var items := WireItems(p.items);
    WireAccepted(lines, now);
    var n := CheckoutServer.NormaliseItems(items).value;
    assert Prop(items[k], "variant_id") == Null;
    assert n[k] == CheckoutServer.NormaliseItem(items[k]);
  }

  /** A provider that creates the order leads the shop to empty the cart;
      a provider error (which carries no 2xx status) leaves it as it was. */
  lemma CartClearedIffOrderCreated(lines: seq<Shop.CartItem>, now: nat, upstream: CheckoutServer.Upstream)
    requires lines != []
    requires upstream.Failed? && upstream.response.Some? ==> !(200 <= upstream.response.value.status < 300)
    ensures var r := CheckoutServer.HandleCheckout(ToWire(Shop.BuildPayload(lines, now)), upstream);
            Shop.CheckoutSucceeds(BrowserSees(r.response)) <==> upstream.Created?
  {
    WireAccepted(lines, now);
  }
}

=== FILE: js_value.dfy ===
/**
 * JavaScript values as the checkout code handles them, and the two string
 * conversions the scripts rely on: `Number(...)` coercion and the decimal
 * rendering of a clock reading inside a template string.
 */
module JsValue {
  import opened Wrappers

  /** The JSON kinds plus `undefined` (a missing property) and `NaN` (a
      failed numeric coercion). Numbers are exact reals. */
  datatype Value =
    | Undefined
    | Null
    | Bool(b: bool)
    | Num(n: real)
    | NaN
    | Str(s: string)
    | Arr(elems: seq<Value>)
    | Obj(fields: map<string, Value>)

  /** JavaScript truthiness: `undefined`, `null`, `false`, `0`, `NaN` and `""` are falsy. */
  predicate Truthy(v: Value) {
    match v
    case Undefined => false
    case Null => false
    case Bool(b) => b
    case Num(n) => n != 0.0
    case NaN => false
    case Str(s) => s != ""
    case _ => true
  }

  /** Reading a property of `null` or `undefined` throws a TypeError. */
  predicate Nullish(v: Value) {
    v.Undefined? || v.Null?
  }

  /** The property read `v.key` on a value that is not nullish: only objects
      carry the properties the scripts read. */
  function Prop(v: Value, key: string): Value {
    if v.Obj? && key in v.fields then v.fields[key] else Undefined
  }

  /** The characters JavaScript counts as white space (`\s` in a regular
      expression, and what `Number(...)` trims). */
  predicate IsWhitespace(c: char) {
    c == ' ' || c == '\t' || c == '\n' || c == '\r'
    || c as int == 0x0B || c as int == 0x0C || c as int == 0xA0
    || c as int == 0x1680 || (0x2000 <= c as int <= 0x200A)
    || c as int == 0x2028 || c as int == 0x2029 || c as int == 0x202F
    || c as int == 0x205F || c as int == 0x3000 || c as int == 0xFEFF
  }

  predicate IsDigit(c: char) {
    '0' <= c <= '9'
  }

  predicate AllDigits(s: string) {
    forall i :: 0 <= i < |s| ==> IsDigit(s[i])
  }

  function DigitValue(c: char): int
    requires IsDigit(c)
  {
    c as int - '0' as int
  }

  function DigitChar(d: int): (c: char)
    requires 0 <= d < 10
    ensures IsDigit(c) && DigitValue(c) == d
  {
    (d + '0' as int) as char
  }

  /** The value of a string of decimal digits, most significant first. */
  function DigitsValue(s: string): (n: nat)
    requires AllDigits(s)
  {
    if s == [] then 0 else DigitsValue(s[..|s| - 1]) * 10 + DigitValue(s[|s| - 1])
  }

  /** `s` is `r` preceded by white space only. */
  predicate LeadingWhitespaceThen(s: string, r: string)
    decreases |s|
  {
    s == r || (s != [] && IsWhitespace(s[0]) && LeadingWhitespaceThen(s[1..], r))
  }

  /** `s` is `r` followed by white space only. */
  predicate ThenTrailingWhitespace(s: string, r: string)
    decreases |s|
  {
    s == r || (s != [] && IsWhitespace(s[|s| - 1]) && ThenTrailingWhitespace(s[..|s| - 1], r))
  }

  /** In index terms: `r` is a suffix of `s` and every character before it
      is white space. */
  lemma {:induction false} LeadingWhitespaceSuffix(s: string, r: string)
    requires LeadingWhitespaceThen(s, r)
    ensures |r| <= |s| && r == s[|s| - |r|..]
    ensures forall i :: 0 <= i < |s| - |r| ==> IsWhitespace(s[i])
    decreases |s|
  {
    if s != r {
      LeadingWhitespaceSuffix(s[1..], r);
    }
  }

  /** In index terms: `r` is a prefix of `s` and every character after it
      is white space. */
  lemma {:induction false} TrailingWhitespacePrefix(s: string, r: string)
    requires ThenTrailingWhitespace(s, r)
    ensures |r| <= |s| && r == s[..|r|]
    ensures forall i :: |r| <= i < |s| ==> IsWhitespace(s[i])
    decreases |s|
  {
    if s != r {
      TrailingWhitespacePrefix(s[..|s| - 1], r);
    }
  }

  /** `s` with leading white space removed: what is cut off is white space
      only, and what is left does not start with it. */
  function TrimStart(s: string): (r: string)
    ensures LeadingWhitespaceThen(s, r)
    ensures r == [] || !IsWhitespace(r[0])
  {
    if s != [] && IsWhitespace(s[0]) then TrimStart(s[1..]) else s
  }

  /** `s` with trailing white space removed: what is cut off is white
      space only, and what is left does not end with it. */
  function TrimEnd(s: string): (r: string)
    ensures ThenTrailingWhitespace(s, r)
    ensures r == [] || !IsWhitespace(r[|r| - 1])
  {
    if s != [] && IsWhitespace(s[|s| - 1]) then TrimEnd(s[..|s| - 1]) else s
  }

  function Trim(s: string): string {
    TrimEnd(TrimStart(s))
  }

  /** `Number(s)` for a string, restricted to integer syntax: white space is
      trimmed, the empty string is 0, an optional sign precedes at least one
      decimal digit; anything else is NaN (None). */
  function ParseNumber(s: string): (r: Option<int>)
    ensures AllDigits(s) && s != [] ==> r == Some(DigitsValue(s))
    ensures Trim(s) == [] ==> r == Some(0)
    ensures var t := Trim(s); t != [] && AllDigits(t) ==> r == Some(DigitsValue(t))
    ensures var t := Trim(s); |t| > 1 && t[0] == '+' && AllDigits(t[1..]) ==> r == Some(DigitsValue(t[1..]))
    ensures var t := Trim(s); |t| > 1 && t[0] == '-' && AllDigits(t[1..]) ==> r == Some(-(DigitsValue(t[1..]) as int))
    ensures r.None? <==>
              var t := Trim(s);
              t != [] && !AllDigits(t) && !(|t| > 1 && (t[0] == '+' || t[0] == '-') && AllDigits(t[1..]))
  {
    var t := Trim(s);
    if t == [] then Some(0)
    else if (t[0] == '-' || t[0] == '+') && |t| > 1 && AllDigits(t[1..]) then
      if t[0] == '-' then Some(-(DigitsValue(t[1..]) as int)) else Some(DigitsValue(t[1..]))
    else if AllDigits(t) then Some(DigitsValue(t))
    else None
  }

  /** `Number(v)`: the result is always a number or NaN, and coercing it
      again changes nothing. Arrays other than `[]` and objects become NaN. */
  function ToNumber(v: Value): (r: Value)
    ensures r.Num? || r.NaN?
    ensures v.Num? || v.NaN? ==> r == v
    ensures v.Null? || v == Bool(false) || v == Arr([]) ==> r == Num(0.0)
    ensures v == Bool(true) ==> r == Num(1.0)
    ensures v.Undefined? || v.Obj? || (v.Arr? && v.elems != []) ==> r == NaN
    ensures v.Str? && ParseNumber(v.s).Some? ==> r == Num(ParseNumber(v.s).value as real)
    ensures v.Str? && ParseNumber(v.s).None? ==> r == NaN
  {
    match v
    case Undefined => NaN
    case Null => Num(0.0)
    case Bool(b) => if b then Num(1.0) else Num(0.0)
    case Num(n) => v
    case NaN => NaN
    case Str(s) => (match ParseNumber(s) case Some(n) => Num(n as real) case None => NaN)
    case Arr(e) => if e == [] then Num(0.0) else NaN
    case Obj(_) => NaN
  }

  /** Decimal rendering of a natural number, as a template string prints it. */
  function DecimalString(n: nat): (s: string)
    ensures s != [] && AllDigits(s)
    decreases n
  {
    if n < 10 then [DigitChar(n)] else DecimalString(n / 10) + [DigitChar(n % 10)]
  }

  lemma {:induction false} DigitsValueOfDecimal(n: nat)
    ensures DigitsValue(DecimalString(n)) == n
    decreases n
  {
    if n >= 10 {
      DigitsValueOfDecimal(n / 10);
      var s := DecimalString(n);
      assert s[..|s| - 1] == DecimalString(n / 10);
    }
  }

  lemma {:induction false} TrimKeepsDigits(s: string)
    requires AllDigits(s)
    ensures Trim(s) == s
  {
    assert TrimStart(s) == s;
    assert TrimEnd(s) == s;
  }

  /** Coercing the decimal rendering of n gives n back. */
  lemma ParseDecimalRoundTrip(n: nat)
    ensures ParseNumber(DecimalString(n)) == Some(n)
  {
    DigitsValueOfDecimal(n);
    TrimKeepsDigits(DecimalString(n));
  }

  /** Coercion is idempotent on every value. */
  lemma ToNumberIdempotent(v: Value)
    ensures ToNumber(ToNumber(v)) == ToNumber(v)
  {
  }
}

=== FILE: lifestyle.dfy ===
/**
 * The lifestyle page's testimonial slider: a global index moved by the
 * previous / next buttons (modular wrap) and by clicking a dot, with
 * exactly the shown testimonial and its dot active.
 */
module Lifestyle {
  import Slideshow

  /** `(currentSlide + 1) % length`. Both operands are non-negative, where
      the page's truncating `%` and Dafny's Euclidean `%` agree. */
  function NextIndex(i: int, len: int): (r: int)
    requires len > 0 && i >= 0
    ensures 0 <= r < len
    ensures 0 <= i < len - 1 ==> r == i + 1
    ensures i == len - 1 ==> r == 0
  {
    (i + 1) % len
  }

  /** `(currentSlide - 1 + length) % length`. */
  function PrevIndex(i: int, len: int): (r: int)
    requires len > 0 && i >= 0
    ensures 0 <= r < len
    ensures 0 < i <= len ==> r == i - 1
    ensures i == 0 ==> r == len - 1
  {
    (i - 1 + len) % len
  }

  /** Next undoes previous and previous undoes next. */
  lemma NextPrevInverse(i: int, len: int)
    requires 0 <= i < len
    ensures PrevIndex(NextIndex(i, len), len) == i
    ensures NextIndex(PrevIndex(i, len), len) == i
  {
  }

  /** On an index in range the modular wrap here and the clamp-style wrap
      of the service slideshows take the same step. */
  lemma AgreesWithClampWrap(i: int, len: int)
    requires 0 <= i < len
    ensures NextIndex(i, len) == Slideshow.NextIndex(i, len)
    ensures PrevIndex(i, len) == Slideshow.PrevIndex(i, len)
  {
  }

  /** Where `k` autoplay ticks take the slider from index `i`. */
  function Advance(i: int, len: int, k: nat): (r: int)
    requires 0 <= i < len
    ensures 0 <= r < len
  {
    if k == 0 then i else NextIndex(Advance(i, len, k - 1), len)
  }

  /** Short of the end, `k` ticks move the slider `k` places. */
  lemma {:induction false} AdvanceInRange(i: int, len: int, k: nat)
    requires 0 <= i && i + k < len
    ensures Advance(i, len, k) == i + k
  {
    if k > 0 {
      AdvanceInRange(i, len, k - 1);
    }
  }

  /** Ticks compose: `a` ticks then `b` ticks is `a + b` ticks. */
  lemma {:induction false} AdvanceAdd(i: int, len: int, a: nat, b: nat)
    requires 0 <= i < len
    ensures Advance(i, len, a + b) == Advance(Advance(i, len, a), len, b)
  {
    if b > 0 {
      AdvanceAdd(i, len, a, b - 1);
    }
  }

  /** After as many ticks as there are testimonials the slider is back
      where it started. */
  lemma FullCycleReturns(i: int, len: int)
    requires 0 <= i < len
    ensures Advance(i, len, len) == i
  {
    AdvanceInRange(i, len, len - i - 1);
    assert Advance(i, len, len - i) == 0;
    AdvanceAdd(i, len, len - i, i);
    if i > 0 {
      AdvanceInRange(0, len, i);
    }
  }

  /** The slider: the global `currentSlide`, the testimonial items' and the
      dots' "active" flags. */
  class TestimonialSlider {
    var currentSlide: int
    const items: array<bool>
    const dots: array<bool>

    ghost predicate Valid()
      reads this
    {
      items != dots && items.Length > 0 && currentSlide >= 0
    }

    ghost predicate Shows(k: int)
      reads items, dots
    {
      && (forall i :: 0 <= i < items.Length ==> items[i] == (i == k))
      && (forall i :: 0 <= i < dots.Length ==> dots[i] == (i == k))
    }

    constructor (items: array<bool>, dots: array<bool>)
      requires items != dots && items.Length > 0
      ensures Valid() && currentSlide == 0 && this.items == items && this.dots == dots
    {
      currentSlide := 0;
      this.items := items;
      this.dots := dots;
    }

    /** `showSlide(index)`: clear every flag, then set the item's and the
        dot's. Indexing past either list throws; `ok` is false then, after
        the flags before the throw have been written. */
    method ShowSlide(index: int) returns (ok: bool)
      requires items != dots
      modifies items, dots
      ensures ok <==> 0 <= index < items.Length && index < dots.Length
      ensures forall i :: 0 <= i < items.Length ==> items[i] == (i == index)
      ensures forall i :: 0 <= i < dots.Length ==> dots[i] == (i == index && index < items.Length)
      ensures ok ==> Shows(index)
    {
      var i := 0;
      while i < items.Length
        invariant 0 <= i <= items.Length
        invariant forall j :: 0 <= j < i ==> !items[j]
      {
        items[i] := false;
        i := i + 1;
      }
      i := 0;
      while i < dots.Length
        invariant 0 <= i <= dots.Length
        invariant forall j :: 0 <= j < i ==> !dots[j]
        invariant forall j :: 0 <= j < items.Length ==> !items[j]
      {
        dots[i] := false;
        i := i + 1;
      }
      if !(0 <= index < items.Length) {
        return false;
      }
      items[index] := true;
      if !(index < dots.Length) {
        return false;
      }
      dots[index] := true;
      ok := true;
    }

    method NextSlide() returns (ok: bool)
      requires Valid()
      modifies this, items, dots
      ensures Valid()
      ensures currentSlide == NextIndex(old(currentSlide), items.Length)
      ensures ok <==> currentSlide < dots.Length
      ensures ok ==> Shows(currentSlide)
    {
      currentSlide := (currentSlide + 1) % items.Length;
      ok := ShowSlide(currentSlide);
    }

    method PrevSlide() returns (ok: bool)
      requires Valid()
      modifies this, items, dots
      ensures Valid()
      ensures currentSlide == PrevIndex(old(currentSlide), items.Length)
      ensures ok <==> currentSlide < dots.Length
      ensures ok ==> Shows(currentSlide)
    {
      currentSlide := (currentSlide - 1 + items.Length) % items.Length;
      ok := ShowSlide(currentSlide);
    }

    /** The click handler of dot `k`. */
    method ClickDot(k: int) returns (ok: bool)
      requires Valid() && 0 <= k < dots.Length
      modifies this, items, dots
      ensures Valid()
      ensures currentSlide == k
      ensures ok <==> k < items.Length
      ensures ok ==> Shows(k)
    {
      currentSlide := k;
      ok := ShowSlide(currentSlide);
    }
  }
}

=== FILE: logistics.dfy ===
/**
 * The delivery page's rules: the static price table and the quote it
 * yields, the weight surcharge, the route rule that enables the same-day
 * option, the phone-number normaliser and the weight clamp.
 */
module Logistics {
  import opened Wrappers
  import JsValue

  datatype Speed = Standard | Express | SameDay

  /** The delivery-speed select's value, when it names a speed the tables know. */
  function ParseSpeed(s: string): Option<Speed> {
    if s == "standard" then Some(Standard)
    else if s == "express" then Some(Express)
    else if s == "same-day" then Some(SameDay)
    else None
  }

  /** One row of the price table, in naira; a same-day price of None is the
      table's `null`: same-day delivery is not offered on that route. */
  datatype Row = Row(standard: int, express: int, sameDay: Option<int>)

  function RowPrice(row: Row, speed: Speed): Option<int> {
    match speed
    case Standard => Some(row.standard)
    case Express => Some(row.express)
    case SameDay => row.sameDay
  }

  /** `pricingMatrix`, keyed by (pickup, delivery). */
  const PricingMatrix: map<(string, string), Row> := map[
    ("lagos", "abuja") := Row(1500, 2800, Some(4500)),
    ("lagos", "port-harcourt") := Row(1800, 3200, None),
    ("lagos", "kano") := Row(2200, 3800, None),
    ("lagos", "lagos") := Row(800, 1500, Some(2500)),
    ("abuja", "abuja") := Row(900, 1600, Some(2800)),
    ("abuja", "lagos") := Row(1500, 2800, Some(4500)),
    ("port-harcourt", "lagos") := Row(1800, 3200, None),
    ("kano", "lagos") := Row(2200, 3800, None)]

  /** The prices for a route the table does not list. */
  const DefaultRow: Row := Row(2000, 3500, None)

  /** `deliveryTimes[speed]`: the page shows a promised time for every speed. */
  function DeliveryTime(speed: Speed): (r: string)
    ensures r != []
  {
    match speed
    case Standard => "3-5 business days"
    case Express => "1-2 business days"
    case SameDay => "2-4 hours"
  }

  /** On every listed route a faster speed costs more. */
  lemma PricingMatrixSpeedsOrdered(pickup: string, delivery: string)
    requires (pickup, delivery) in PricingMatrix
    ensures PricingMatrix[(pickup, delivery)].standard < PricingMatrix[(pickup, delivery)].express
    ensures PricingMatrix[(pickup, delivery)].sameDay.Some? ==>
              PricingMatrix[(pickup, delivery)].express < PricingMatrix[(pickup, delivery)].sameDay.value
  {
  }

  /** The row a quote uses: the forward route, else the reverse route, else
      the default row. Whichever it is, a faster speed costs more. */
  function RouteRow(pickup: string, delivery: string): (r: Row)
    ensures (pickup, delivery) in PricingMatrix ==> r == PricingMatrix[(pickup, delivery)]
    ensures (pickup, delivery) !in PricingMatrix && (delivery, pickup) !in PricingMatrix ==> r == DefaultRow
    ensures r.standard < r.express && (r.sameDay.Some? ==> r.express < r.sameDay.value)
  {
    if (pickup, delivery) in PricingMatrix then PricingMatrix[(pickup, delivery)]
    else if (delivery, pickup) in PricingMatrix then PricingMatrix[(delivery, pickup)]
    else DefaultRow
  }

  /** The routes on which `updateDeliveryOptions` enables same-day delivery. */
  predicate SameDayRoute(pickup: string, delivery: string)
    ensures SameDayRoute(pickup, delivery) ==> pickup in {"lagos", "abuja"} && delivery in {"lagos", "abuja"}
  {
    || (pickup == "lagos" && delivery == "lagos")
    || (pickup == "abuja" && delivery == "abuja")
    || (pickup == "lagos" && delivery == "abuja")
    || (pickup == "abuja" && delivery == "lagos")
  }

  /** The table is symmetric: a route and its reverse have the same row. */
  lemma PricingMatrixSymmetric(pickup: string, delivery: string)
    requires (pickup, delivery) in PricingMatrix
    ensures (delivery, pickup) in PricingMatrix
    ensures PricingMatrix[(delivery, pickup)] == PricingMatrix[(pickup, delivery)]
  {
  }

  /** So the row does not depend on the direction of travel. */
  lemma RouteRowSymmetric(pickup: string, delivery: string)
    ensures RouteRow(pickup, delivery) == RouteRow(delivery, pickup)
  {
    if (pickup, delivery) in PricingMatrix {
      PricingMatrixSymmetric(pickup, delivery);
    } else if (delivery, pickup) in PricingMatrix {
      PricingMatrixSymmetric(delivery, pickup);
    }
  }

  /** A route has a same-day price exactly when the option rule enables
      same-day delivery on it: the table and the form agree. */
  lemma SameDayPricedIffEnabled(pickup: string, delivery: string)
    ensures RouteRow(pickup, delivery).sameDay.Some? <==> SameDayRoute(pickup, delivery)
  {
    if (pickup, delivery) in PricingMatrix {
    } else if (delivery, pickup) in PricingMatrix {
      PricingMatrixSymmetric(delivery, pickup);
    }
  }

  /** `Math.ceil` on a real. */
  function Ceil(x: real): (c: int)
    ensures c as real - 1.0 < x <= c as real
  {
    if x.Floor as real == x then x.Floor else x.Floor + 1
  }

  /** The weight surcharge: 200 for every started kilogram over 5 kg. */
  function Surcharge(weight: real): (r: int)
    ensures r >= 0 && r % 200 == 0
    ensures r == 0 <==> weight <= 5.0
    ensures r > 0 ==> (r / 200 - 1) as real < weight - 5.0 <= (r / 200) as real
  {
    if weight > 5.0 then Ceil(weight - 5.0) * 200 else 0
  }

  /** A heavier parcel never costs less. */
  lemma SurchargeMonotone(w1: real, w2: real)
    requires w1 <= w2
    ensures Surcharge(w1) <= Surcharge(w2)
  {
    if w1 > 5.0 {
      var c1, c2 := Ceil(w1 - 5.0), Ceil(w2 - 5.0);
      assert c1 <= c2;
    }
  }

  /** What the calculate button shows. */
  datatype QuoteResult =
    | MissingFields          // "Please fill in all required fields ..."
    | SameDayUnavailable     // "Same-day delivery is not available for this route."
    | UnknownSpeed           // a speed the tables do not know: the page shows no number
    | Quote(price: int, deliveryTime: string)

  /** `!weight` after `parseFloat`: NaN (None) and zero count as missing. */
  predicate MissingWeight(weight: Option<real>) {
    weight.None? || weight.value == 0.0
  }

  predicate MissingInput(pickup: string, delivery: string, weight: Option<real>, speed: string) {
    pickup == "" || delivery == "" || MissingWeight(weight) || speed == ""
  }

  /** The calculate handler. `weight` is `parseFloat` of the field, None for NaN. */
  function CalculateQuote(pickup: string, delivery: string, weight: Option<real>, speed: string): (r: QuoteResult)
    ensures r == MissingFields <==> MissingInput(pickup, delivery, weight, speed)
    ensures r == UnknownSpeed <==> !MissingInput(pickup, delivery, weight, speed) && ParseSpeed(speed).None?
    ensures r == SameDayUnavailable <==>
              !MissingInput(pickup, delivery, weight, speed) && speed == "same-day" && !SameDayRoute(pickup, delivery)
    ensures r.Quote? ==>
              && ParseSpeed(speed).Some?
              && RowPrice(RouteRow(pickup, delivery), ParseSpeed(speed).value).Some?
              && r.price == RowPrice(RouteRow(pickup, delivery), ParseSpeed(speed).value).value + Surcharge(weight.value)
              && r.price >= RowPrice(RouteRow(pickup, delivery), ParseSpeed(speed).value).value
              && r.deliveryTime == DeliveryTime(ParseSpeed(speed).value)
  {
    SameDayPricedIffEnabled(pickup, delivery);
    if MissingInput(pickup, delivery, weight, speed) then MissingFields
    else match ParseSpeed(speed)
      case None => UnknownSpeed
      case Some(s) =>
        match RowPrice(RouteRow(pickup, delivery), s)
        case None => SameDayUnavailable
        case Some(base) => Quote(base + Surcharge(weight.value), DeliveryTime(s))
  }

  /** Swapping pickup and delivery gives the same quote. */
  lemma QuoteSymmetric(pickup: string, delivery: string, weight: Option<real>, speed: string)
    ensures CalculateQuote(pickup, delivery, weight, speed) == CalculateQuote(delivery, pickup, weight, speed)
  {
    RouteRowSymmetric(pickup, delivery);
  }

  /** On the same route and speed, a heavier parcel is never quoted less. */
  lemma QuoteMonotoneInWeight(pickup: string, delivery: string, w1: real, w2: real, speed: string)
    requires w1 <= w2
    requires CalculateQuote(pickup, delivery, Some(w1), speed).Quote?
    requires CalculateQuote(pickup, delivery, Some(w2), speed).Quote?
    ensures CalculateQuote(pickup, delivery, Some(w1), speed).price
            <= CalculateQuote(pickup, delivery, Some(w2), speed).price
  {
    SurchargeMonotone(w1, w2);
  }

  // ---------------------------------------------------------------------
  // The speed select and its same-day options

  datatype OptionState = OptionState(disabled: bool, text: string)

  const SameDayEnabled: OptionState := OptionState(false, "Same Day (2-4 hours)")
  const SameDayDisabled: OptionState := OptionState(true, "Same Day (Not Available)")

  /** The delivery-speed select: its value and its `option[value="same-day"]` elements. */
  class SpeedSelect {
    var value: string
    const sameDayOptions: array<OptionState>

    constructor (value: string, sameDayOptions: array<OptionState>)
      ensures this.value == value && this.sameDayOptions == sameDayOptions
    {
      this.value := value;
      this.sameDayOptions := sameDayOptions;
    }

    /** `updateDeliveryOptions`, run when either location changes. */
    method UpdateDeliveryOptions(pickup: string, delivery: string)
      modifies this, sameDayOptions
      ensures pickup == "" || delivery == "" ==>
                value == old(value) && sameDayOptions[..] == old(sameDayOptions[..])
      ensures pickup != "" && delivery != "" && SameDayRoute(pickup, delivery) ==>
                && value == old(value)
                && forall i :: 0 <= i < sameDayOptions.Length ==> sameDayOptions[i] == SameDayEnabled
      ensures pickup != "" && delivery != "" && !SameDayRoute(pickup, delivery) ==>
                && value == (if old(value) == "same-day" then "" else old(value))
                && forall i :: 0 <= i < sameDayOptions.Length ==> sameDayOptions[i] == SameDayDisabled
      ensures pickup != "" && delivery != "" ==>
                forall w :: CalculateQuote(pickup, delivery, w, value) != SameDayUnavailable
    {
      if pickup != "" && delivery != "" {
        var enable := SameDayRoute(pickup, delivery);
        var state := if enable then SameDayEnabled else SameDayDisabled;
        var i := 0;
        while i < sameDayOptions.Length
          invariant 0 <= i <= sameDayOptions.Length
          invariant forall k :: 0 <= k < i ==> sameDayOptions[k] == state
          invariant value == old(value)
        {
          sameDayOptions[i] := state;
          i := i + 1;
        }
        if !enable && value == "same-day" {
          value := "";
        }
      }
    }
  }

  // ---------------------------------------------------------------------
  // Phone numbers

  /** The characters `/[^+\d\s]/g` leaves in place. */
  predicate PhoneChar(c: char) {
    c == '+' || JsValue.IsDigit(c) || JsValue.IsWhitespace(c)
  }

  predicate AllPhoneChars(s: string) {
    forall i :: 0 <= i < |s| ==> PhoneChar(s[i])
  }

  predicate StartsWith(s: string, prefix: string) {
    |prefix| <= |s| && s[..|prefix|] == prefix
  }

  /** `value.replace(/[^+\d\s]/g, '')`. */
  function StripNonPhoneChars(s: string): (r: string)
    ensures AllPhoneChars(r) && |r| <= |s|
    ensures |s| == 1 ==> (PhoneChar(s[0]) ==> r == s) && (!PhoneChar(s[0]) ==> r == [])
  {
    if s == [] then []
    else (if PhoneChar(s[0]) then [s[0]] else []) + StripNonPhoneChars(s[1..])
  }

  /** The strip works character by character: stripping a concatenation
      strips each part and keeps their order, so every allowed character
      the user typed survives in place. */
  lemma {:induction false} StripConcat(a: string, b: string)
    ensures StripNonPhoneChars(a + b) == StripNonPhoneChars(a) + StripNonPhoneChars(b)
  {
    if a == [] {
      assert a + b == b;
    } else {
      var head := if PhoneChar(a[0]) then [a[0]] else [];
      assert (a + b)[0] == a[0];
      assert (a + b)[1..] == a[1..] + b;
      assert StripNonPhoneChars(a + b) == head + StripNonPhoneChars(a[1..] + b);
      assert StripNonPhoneChars(a) == head + StripNonPhoneChars(a[1..]);
      StripConcat(a[1..], b);
      assert head + (StripNonPhoneChars(a[1..]) + StripNonPhoneChars(b))
          == (head + StripNonPhoneChars(a[1..])) + StripNonPhoneChars(b);
    }
  }

  lemma {:induction false} StripKeepsPhoneChars(s: string)
    requires AllPhoneChars(s)
    ensures StripNonPhoneChars(s) == s
  {
    if s != [] {
      StripKeepsPhoneChars(s[1..]);
    }
  }

  /** The phone input handler: strip, then prefix +234 unless the number
      already starts with +234 or 0. */
  function NormalizePhone(s: string): (r: string)
    ensures AllPhoneChars(r)
    ensures r != [] ==> StartsWith(r, "+234") || StartsWith(r, "0")
    ensures r == [] <==> StripNonPhoneChars(s) == []
    ensures r == StripNonPhoneChars(s) || r == "+234" + StripNonPhoneChars(s)
    ensures r == StripNonPhoneChars(s) <==>
              var t := StripNonPhoneChars(s);
              t == [] || StartsWith(t, "+234") || StartsWith(t, "0")
  {
    var t := StripNonPhoneChars(s);
    if |t| > 0 && !StartsWith(t, "+234") && !StartsWith(t, "0") then
      assert ("+234" + t)[..4] == "+234";
      "+234" + t
    else t
  }

  /** Typing into a normalised field and normalising again changes nothing. */
  lemma NormalizePhoneIdempotent(s: string)
    ensures NormalizePhone(NormalizePhone(s)) == NormalizePhone(s)
  {
    StripKeepsPhoneChars(NormalizePhone(s));
  }

  // ---------------------------------------------------------------------
  // The weight field

  /** The weight input handler on the field's numeric value. An empty
      field compares as 0 and so reads as Some(0.0); None is NaN, which
      compares false both ways and is left alone. */
  function ClampWeight(v: Option<real>): (r: Option<real>)
    ensures v.None? <==> r.None?
    ensures r.Some? ==> 0.1 <= r.value <= 1000.0
    ensures v.Some? && 0.1 <= v.value <= 1000.0 ==> r == v
    ensures v.Some? && v.value < 0.1 ==> r == Some(0.1)
    ensures v.Some? && v.value > 1000.0 ==> r == Some(1000.0)
  {
    match v
    case None => None
    case Some(x) =>
      var y := if x < 0.1 then 0.1 else x;
      var z := if y > 1000.0 then 1000.0 else y;
      Some(z)
  }

  lemma ClampWeightIdempotent(v: Option<real>)
    ensures ClampWeight(ClampWeight(v)) == ClampWeight(v)
  {
  }
}

=== FILE: server.dfy ===
/**
 * The checkout route of the site's server: validate the posted order,
 * coerce each item to exactly the four fields the print provider takes,
 * forward it, and turn the provider's answer into the response. The
 * provider's answer is an input: the route's only effect on it is the
 * payload it forwards.
 */
module CheckoutServer {
  import opened Wrappers
  import opened JsValue

  const InvalidPayloadError: Value :=
    Obj(map["error" := Str("Invalid payload: recipient and items are required.")])

  const OrderFailedError: Value := Obj(map["error" := Str("Order creation failed.")])

  /** The fields a normalised item has, and no others. */
  const ItemFields: set<string> := {"variant_id", "quantity", "retail_price", "name"}

  /** The route's guard: a truthy body with a truthy recipient and a
      non-empty array of items. */
  predicate ValidPayload(body: Value)
    ensures ValidPayload(body) ==> body.Obj? && "recipient" in body.fields && "items" in body.fields
  {
    && Truthy(body)
    && Truthy(Prop(body, "recipient"))
    && Prop(body, "items").Arr?
    && |Prop(body, "items").elems| > 0
  }

  /** The `map` callback on one item that is not null or undefined (those
      make the property read throw). */
  function NormaliseItem(i: Value): (r: Value)
    requires !Nullish(i)
    ensures r.Obj? && r.fields.Keys == ItemFields
    ensures r.fields["variant_id"].Num? || r.fields["variant_id"].NaN?
    ensures r.fields["quantity"].Num? || r.fields["quantity"].NaN?
    ensures Prop(i, "variant_id").Num? ==> r.fields["variant_id"] == Prop(i, "variant_id")
    ensures Prop(i, "quantity").Num? ==> r.fields["quantity"] == Prop(i, "quantity")
    ensures r.fields["variant_id"] == ToNumber(Prop(i, "variant_id"))
    ensures r.fields["quantity"] == ToNumber(Prop(i, "quantity"))
    ensures r.fields["retail_price"] == Prop(i, "retail_price") && r.fields["name"] == Prop(i, "name")
  {
    Obj(map[
      "variant_id" := ToNumber(Prop(i, "variant_id")),
      "quantity" := ToNumber(Prop(i, "quantity")),
      "retail_price" := Prop(i, "retail_price"),
      "name" := Prop(i, "name")])
  }

  /** `items.map(...)`: None when some item is null or undefined, which
      throws a TypeError; otherwise the items, normalised, in order. */
  function NormaliseItems(items: seq<Value>): (r: Option<seq<Value>>)
    ensures r.Some? <==> forall k :: 0 <= k < |items| ==> !Nullish(items[k])
    ensures r.Some? ==> |r.value| == |items|
    ensures r.Some? ==> forall k :: 0 <= k < |items| ==> !Nullish(items[k]) && r.value[k] == NormaliseItem(items[k])
  {
    if items == [] then Some([])
    else if Nullish(items[0]) then None
    else match NormaliseItems(items[1..])
      case None => None
      case Some(rest) => Some([NormaliseItem(items[0])] + rest)
  }

  /** An item normalised once is left as it is by a second pass. */
  lemma NormaliseItemIdempotent(i: Value)
    requires !Nullish(i)
    ensures NormaliseItem(NormaliseItem(i)) == NormaliseItem(i)
  {
    ToNumberIdempotent(Prop(i, "variant_id"));
    ToNumberIdempotent(Prop(i, "quantity"));
  }

  lemma {:induction false} NormaliseItemsIdempotent(items: seq<Value>)
    requires NormaliseItems(items).Some?
    ensures NormaliseItems(NormaliseItems(items).value) == NormaliseItems(items)
  {
    var once := NormaliseItems(items).value;
    forall k | 0 <= k < |items|
      ensures NormaliseItem(once[k]) == once[k]
    {
      NormaliseItemIdempotent(items[k]);
    }
    NormalisedAreFixed(once);
  }

  /** A list whose items are already in normal form is its own normal form. */
  lemma {:induction false} NormalisedAreFixed(items: seq<Value>)
    requires forall k :: 0 <= k < |items| ==> !Nullish(items[k]) && NormaliseItem(items[k]) == items[k]
    ensures NormaliseItems(items) == Some(items)
  {
    if items != [] {
      NormalisedAreFixed(items[1..]);
      assert [items[0]] + items[1..] == items;
    }
  }

  /** The provider's answer: an order, or an error that may carry a response. */
  datatype UpstreamResponse = UpstreamResponse(status: int, data: Value)
  datatype Upstream = Created(data: Value) | Failed(response: Option<UpstreamResponse>)

  datatype Response = Response(status: int, body: Value)

  /** What one request does: the payload forwarded upstream (None when no
      call is made) and the response sent back. */
  datatype Exchange = Exchange(forwarded: Option<Value>, response: Response)

  /** The catch block: the provider's status when it sent a truthy one,
      else 500; its body when truthy, else the generic error. */
  function ErrorResponse(failure: Option<UpstreamResponse>): (r: Response)
    ensures failure.None? ==> r == Response(500, OrderFailedError)
    ensures failure.Some? && failure.value.status != 0 ==> r.status == failure.value.status
    ensures failure.Some? && failure.value.status == 0 ==> r.status == 500
    ensures failure.Some? && Truthy(failure.value.data) ==> r.body == failure.value.data
    ensures failure.Some? && !Truthy(failure.value.data) ==> r.body == OrderFailedError
    ensures r.status != 0 && Truthy(r.body)
  {
    match failure
    case None => Response(500, OrderFailedError)
    case Some(resp) =>
      Response(if resp.status != 0 then resp.status else 500,
               if Truthy(resp.data) then resp.data else OrderFailedError)
  }

  /** The route from request body to response. */
  function HandleCheckout(body: Value, upstream: Upstream): (r: Exchange)
    ensures !ValidPayload(body) ==> r == Exchange(None, Response(400, InvalidPayloadError))
    ensures ValidPayload(body) && NormaliseItems(Prop(body, "items").elems).None? ==>
              r == Exchange(None, Response(500, OrderFailedError))
    ensures r.forwarded.Some? <==> ValidPayload(body) && NormaliseItems(Prop(body, "items").elems).Some?
    ensures r.forwarded.Some? ==>
              && body.Obj? && r.forwarded.value.Obj?
              && r.forwarded.value.fields.Keys == body.fields.Keys
              && (forall key :: key in body.fields && key != "items" ==>
                    r.forwarded.value.fields[key] == body.fields[key])
              && r.forwarded.value.fields["items"] == Arr(NormaliseItems(Prop(body, "items").elems).value)
    ensures r.forwarded.Some? && upstream.Created? ==>
              r.response == Response(200, Obj(map["ok" := Bool(true), "data" := upstream.data]))
    ensures r.forwarded.Some? && upstream.Failed? ==> r.response == ErrorResponse(upstream.response)
  {
    if !ValidPayload(body) then Exchange(None, Response(400, InvalidPayloadError))
    else match NormaliseItems(Prop(body, "items").elems)
      case None => Exchange(None, ErrorResponse(None))
      case Some(items) =>
        var payload := Obj(body.fields["items" := Arr(items)]);
        match upstream
        case Created(data) => Exchange(Some(payload), Response(200, Obj(map["ok" := Bool(true), "data" := data])))
        case Failed(response) => Exchange(Some(payload), ErrorResponse(response))
  }

  /** What the route forwards passes its own guard and is already in
      normal form: a second pass through the route would forward it as is. */
  lemma ForwardedIsNormal(body: Value, upstream: Upstream)
    requires HandleCheckout(body, upstream).forwarded.Some?
    ensures var p := HandleCheckout(body, upstream).forwarded.value;
            && ValidPayload(p)
            && HandleCheckout(p, upstream).forwarded == Some(p)
  {
    var items := NormaliseItems(Prop(body, "items").elems).value;
    var p := HandleCheckout(body, upstream).forwarded.value;
    assert Prop(p, "items") == Arr(items);
    assert Prop(p, "recipient") == Prop(body, "recipient");
    NormaliseItemsIdempotent(Prop(body, "items").elems);
    assert p.fields["items" := Arr(items)] == p.fields;
  }

  /** The Express response object: the status set and the JSON sent. */
  class ServerResponse {
    var statusCode: int
    var sent: Option<Value>

    constructor ()
      ensures statusCode == 200 && sent.None?
    {
      statusCode := 200;
      sent := None;
    }

    method Status(code: int)
      modifies this
      ensures statusCode == code && sent == old(sent)
    {
      statusCode := code;
    }

    method Json(v: Value)
      modifies this
      ensures sent == Some(v) && statusCode == old(statusCode)
    {
      sent := Some(v);
    }
  }

  /** The route handler: it rewrites the payload's items, calls the
      provider (whose answer is `upstream`) and writes the response. */
  method Checkout(body: Value, upstream: Upstream, res: ServerResponse) returns (forwarded: Option<Value>)
    modifies res
    ensures forwarded == HandleCheckout(body, upstream).forwarded
    ensures res.statusCode == HandleCheckout(body, upstream).response.status
    ensures res.sent == Some(HandleCheckout(body, upstream).response.body)
  {
    forwarded := None;
    if !ValidPayload(body) {
      res.Status(400);
      res.Json(InvalidPayloadError);
      return;
    }
    var payload := body;
    var items := NormaliseItems(Prop(payload, "items").elems);
    if items.None? {
      res.Status(500);
      res.Json(OrderFailedError);
      return;
    }
    payload := Obj(payload.fields["items" := Arr(items.value)]);
    forwarded := Some(payload);
    match upstream {
      case Created(data) =>
        res.Status(200);
        res.Json(Obj(map["ok" := Bool(true), "data" := data]));
      case Failed(response) =>
        var status := if response.Some? && response.value.status != 0 then response.value.status else 500;
        var message := if response.Some? && Truthy(response.value.data) then response.value.data else OrderFailedError;
        res.Status(status);
        res.Json(message);
    }
  }
}

=== FILE: shop.dfy ===
/**
 * The art shop's cart store: an ordered list of line items kept in the
 * browser, changed in place by the add, quantity and clear handlers and by
 * a successful checkout; the derived badge count, total and order payload;
 * and the sort and filter rules for the product grid.
 */
module Shop {
  import opened Wrappers
  import opened JsValue

  /** One cart line. Its key is (productId, variantId). */
  datatype CartItem = CartItem(
    productId: string,
    title: string,
    variantId: string,
    variantLabel: string,
    price: real,
    qty: int)

  function Key(item: CartItem): (string, string) {
    (item.productId, item.variantId)
  }

  predicate UniqueKeys(lines: seq<CartItem>) {
    forall i, j :: 0 <= i < j < |lines| ==> Key(lines[i]) != Key(lines[j])
  }

  predicate PositiveQuantities(lines: seq<CartItem>) {
    forall i :: 0 <= i < |lines| ==> lines[i].qty >= 1
  }

  /** The cart invariant: keys are unique and every quantity is at least 1. */
  predicate WellFormed(lines: seq<CartItem>) {
    UniqueKeys(lines) && PositiveQuantities(lines)
  }

  /** `cart.findIndex(...)` on the key: the first matching line, or -1. */
  function IndexOfKey(lines: seq<CartItem>, key: (string, string)): (r: int)
    ensures -1 <= r < |lines|
    ensures r >= 0 ==> Key(lines[r]) == key && forall j :: 0 <= j < r ==> Key(lines[j]) != key
    ensures r == -1 ==> forall j :: 0 <= j < |lines| ==> Key(lines[j]) != key
  {
    if lines == [] then -1
    else if Key(lines[0]) == key then 0
    else
      var r := IndexOfKey(lines[1..], key);
      if r == -1 then -1 else r + 1
  }

  // ---------------------------------------------------------------------
  // The cart operations as functions of the line list

  /** The add-to-cart handler: bump the first line with the same key, or
      append a new line with quantity 1. */
  function AddLine(lines: seq<CartItem>, productId: string, title: string, variantId: string,
                   variantLabel: string, price: real): (r: seq<CartItem>)
    ensures forall i :: 0 <= i < |lines| && Key(lines[i]) == (productId, variantId)
                        && (forall j :: 0 <= j < i ==> Key(lines[j]) != (productId, variantId))
                        ==> r == lines[i := lines[i].(qty := lines[i].qty + 1)]
    ensures (forall i :: 0 <= i < |lines| ==> Key(lines[i]) != (productId, variantId))
            ==> r == lines + [CartItem(productId, title, variantId, variantLabel, price, 1)]
  {
    var existing := IndexOfKey(lines, (productId, variantId));
    if existing >= 0 then lines[existing := lines[existing].(qty := lines[existing].qty + 1)]
    else lines + [CartItem(productId, title, variantId, variantLabel, price, 1)]
  }

  /** The "+" button on line idx. */
  function IncLine(lines: seq<CartItem>, idx: int): (r: seq<CartItem>)
    requires 0 <= idx < |lines|
    ensures |r| == |lines| && r[idx] == lines[idx].(qty := lines[idx].qty + 1)
    ensures forall j :: 0 <= j < |lines| && j != idx ==> r[j] == lines[j]
  {
    lines[idx := lines[idx].(qty := lines[idx].qty + 1)]
  }

  /** The "-" button on line idx: the quantity never drops below 1. */
  function DecLine(lines: seq<CartItem>, idx: int): (r: seq<CartItem>)
    requires 0 <= idx < |lines|
    ensures |r| == |lines| && r[idx].qty >= 1
    ensures lines[idx].qty > 1 ==> r[idx].qty == lines[idx].qty - 1
    ensures lines[idx].qty <= 2 ==> r[idx].qty == 1
    ensures r[idx] == lines[idx].(qty := r[idx].qty)
    ensures forall j :: 0 <= j < |lines| && j != idx ==> r[j] == lines[j]
  {
    lines[idx := lines[idx].(qty := if lines[idx].qty - 1 > 1 then lines[idx].qty - 1 else 1)]
  }

  /** The "Remove" button on line idx (`cart.splice(idx, 1)`). */
  function RemoveLine(lines: seq<CartItem>, idx: int): (r: seq<CartItem>)
    requires 0 <= idx < |lines|
    ensures |r| == |lines| - 1
    ensures forall j :: 0 <= j < idx ==> r[j] == lines[j]
    ensures forall j :: idx <= j < |r| ==> r[j] == lines[j + 1]
  {
    lines[..idx] + lines[idx + 1..]
  }

  /** Each cart operation keeps the invariant: unique keys, quantities at least 1. */
  lemma AddLineKeepsWellFormed(lines: seq<CartItem>, productId: string, title: string, variantId: string,
                               variantLabel: string, price: real)
    requires WellFormed(lines)
    ensures WellFormed(AddLine(lines, productId, title, variantId, variantLabel, price))
  {
  }

  lemma IncLineKeepsWellFormed(lines: seq<CartItem>, idx: int)
    requires 0 <= idx < |lines| && WellFormed(lines)
    ensures WellFormed(IncLine(lines, idx))
  {
  }

  lemma DecLineKeepsWellFormed(lines: seq<CartItem>, idx: int)
    requires 0 <= idx < |lines| && WellFormed(lines)
    ensures WellFormed(DecLine(lines, idx))
  {
  }

  lemma RemoveLineKeepsWellFormed(lines: seq<CartItem>, idx: int)
    requires 0 <= idx < |lines| && WellFormed(lines)
    ensures WellFormed(RemoveLine(lines, idx))
  {
  }

  // ---------------------------------------------------------------------
  // Derived values

  /** The badge: `cart.reduce((sum, i) => sum + i.qty, 0)`. */
  function BadgeCount(lines: seq<CartItem>): (r: int)
    ensures (forall i :: 0 <= i < |lines| ==> lines[i].qty >= 0) ==> r >= 0
  {
    if lines == [] then 0 else lines[0].qty + BadgeCount(lines[1..])
  }

  /** `price * n`, written as repeated addition (subtraction for negative
      n) so that sums of amounts stay linear; `ScaledIsProduct` shows it is
      the product. */
  function Scaled(price: real, n: int): (r: real)
    ensures price >= 0.0 && n >= 0 ==> r >= 0.0
    decreases if n < 0 then -n else n
  {
    if n == 0 then 0.0
    else if n > 0 then Scaled(price, n - 1) + price
    else Scaled(price, n + 1) - price
  }

  lemma {:induction false} ScaledIsProduct(price: real, n: int)
    ensures Scaled(price, n) == price * n as real
    decreases if n < 0 then -n else n
  {
    if n > 0 {
      ScaledIsProduct(price, n - 1);
      assert price * n as real == price * (n - 1) as real + price;
    } else if n < 0 {
      ScaledIsProduct(price, n + 1);
      assert price * n as real == price * (n + 1) as real - price;
    }
  }

  /** What one line adds to the total: `i.price * i.qty`. */
  function Amount(item: CartItem): real {
    Scaled(item.price, item.qty)
  }

  /** `cartTotal()`: `cart.reduce((sum, i) => sum + i.price * i.qty, 0)`. */
  function Total(lines: seq<CartItem>): (r: real)
    ensures (forall i :: 0 <= i < |lines| ==> lines[i].qty >= 0 && lines[i].price >= 0.0) ==> r >= 0.0
  {
    if lines == [] then 0.0 else Amount(lines[0]) + Total(lines[1..])
  }

  /** One more unit adds the unit price to a line's amount. */
  lemma AmountOfOneMore(item: CartItem)
    ensures Amount(item.(qty := item.qty + 1)) == Amount(item) + item.price
  {
    if item.qty < 0 {
      assert Scaled(item.price, item.qty) == Scaled(item.price, item.qty + 1) - item.price;
    }
  }

  lemma {:induction false} BadgeCountConcat(a: seq<CartItem>, b: seq<CartItem>)
    ensures BadgeCount(a + b) == BadgeCount(a) + BadgeCount(b)
  {
    if a != [] {
      assert (a + b)[1..] == a[1..] + b;
      BadgeCountConcat(a[1..], b);
    } else {
      assert a + b == b;
    }
  }

  lemma {:induction false} TotalConcat(a: seq<CartItem>, b: seq<CartItem>)
    ensures Total(a + b) == Total(a) + Total(b)
  {
    if a != [] {
      assert (a + b)[1..] == a[1..] + b;
      TotalConcat(a[1..], b);
    } else {
      assert a + b == b;
    }
  }

  /** Replacing one line changes the badge and the total by that line's difference. */
  lemma ReplaceLineSums(lines: seq<CartItem>, idx: int, x: CartItem)
    requires 0 <= idx < |lines|
    ensures BadgeCount(lines[idx := x]) == BadgeCount(lines) - lines[idx].qty + x.qty
    ensures Total(lines[idx := x]) == Total(lines) - Amount(lines[idx]) + Amount(x)
  {
    var pre, post := lines[..idx], lines[idx + 1..];
    assert lines == pre + ([lines[idx]] + post);
    assert lines[idx := x] == pre + ([x] + post);
    BadgeCountConcat(pre, [lines[idx]] + post);
    BadgeCountConcat([lines[idx]], post);
    BadgeCountConcat(pre, [x] + post);
    BadgeCountConcat([x], post);
    TotalConcat(pre, [lines[idx]] + post);
    TotalConcat([lines[idx]], post);
    TotalConcat(pre, [x] + post);
    TotalConcat([x], post);
  }

  /** Adding raises the badge by exactly 1 and the total by the price of the
      line that was bumped (its stored price) or appended. */
  lemma AddLineSums(lines: seq<CartItem>, productId: string, title: string, variantId: string,
                    variantLabel: string, price: real)
    ensures var existing := IndexOfKey(lines, (productId, variantId));
            var r := AddLine(lines, productId, title, variantId, variantLabel, price);
            && BadgeCount(r) == BadgeCount(lines) + 1
            && Total(r) == Total(lines) + (if existing >= 0 then lines[existing].price else price)
  {
    var existing := IndexOfKey(lines, (productId, variantId));
    var r := AddLine(lines, productId, title, variantId, variantLabel, price);
    if existing >= 0 {
      IncLineIsUpdate(lines, existing);
      assert r == IncLine(lines, existing);
      IncLineSums(lines, existing);
    } else {
      var x := CartItem(productId, title, variantId, variantLabel, price, 1);
      assert r == lines + [x];
      BadgeCountConcat(lines, [x]);
      TotalConcat(lines, [x]);
      assert BadgeCount([x]) == 1 && Total([x]) == price;
    }
  }

  lemma IncLineIsUpdate(lines: seq<CartItem>, idx: int)
    requires 0 <= idx < |lines|
    ensures IncLine(lines, idx) == lines[idx := lines[idx].(qty := lines[idx].qty + 1)]
  {
  }

  lemma IncLineBadge(lines: seq<CartItem>, idx: int)
    requires 0 <= idx < |lines|
    ensures BadgeCount(IncLine(lines, idx)) == BadgeCount(lines) + 1
  {
    IncLineIsUpdate(lines, idx);
    ReplaceLineSums(lines, idx, lines[idx].(qty := lines[idx].qty + 1));
  }

  lemma IncLineTotal(lines: seq<CartItem>, idx: int)
    requires 0 <= idx < |lines|
    ensures Total(IncLine(lines, idx)) == Total(lines) + lines[idx].price
  {
    IncLineIsUpdate(lines, idx);
    ReplaceLineSums(lines, idx, lines[idx].(qty := lines[idx].qty + 1));
    AmountOfOneMore(lines[idx]);
  }

  /** "+" raises the badge by 1 and the total by the line's price. */
  lemma IncLineSums(lines: seq<CartItem>, idx: int)
    requires 0 <= idx < |lines|
    ensures BadgeCount(IncLine(lines, idx)) == BadgeCount(lines) + 1
    ensures Total(IncLine(lines, idx)) == Total(lines) + lines[idx].price
  {
    IncLineBadge(lines, idx);
    IncLineTotal(lines, idx);
  }

  /** On a line with quantity at least 1, "-" lowers the badge by 1 and the
      total by the price unless the quantity is already 1, when nothing changes. */
  lemma DecLineSums(lines: seq<CartItem>, idx: int)
    requires 0 <= idx < |lines| && lines[idx].qty >= 1
    ensures BadgeCount(DecLine(lines, idx)) == BadgeCount(lines) - (if lines[idx].qty > 1 then 1 else 0)
    ensures Total(DecLine(lines, idx)) == Total(lines) - (if lines[idx].qty > 1 then lines[idx].price else 0.0)
  {
    var x := DecLine(lines, idx)[idx];
    assert DecLine(lines, idx) == lines[idx := x];
    ReplaceLineSums(lines, idx, x);
    if lines[idx].qty > 1 {
      assert lines[idx] == x.(qty := x.qty + 1);
      AmountOfOneMore(x);
    } else {
      assert x == lines[idx];
    }
  }

  /** Removing a line takes its quantity off the badge and its amount off the total. */
  lemma RemoveLineSums(lines: seq<CartItem>, idx: int)
    requires 0 <= idx < |lines|
    ensures BadgeCount(RemoveLine(lines, idx)) == BadgeCount(lines) - lines[idx].qty
    ensures Total(RemoveLine(lines, idx)) == Total(lines) - Amount(lines[idx])
  {
    SumsAroundLine(lines, idx);
    BadgeCountConcat(lines[..idx], lines[idx + 1..]);
    TotalConcat(lines[..idx], lines[idx + 1..]);
  }

  lemma SumsAroundLine(lines: seq<CartItem>, idx: int)
    requires 0 <= idx < |lines|
    ensures BadgeCount(lines) == BadgeCount(lines[..idx]) + lines[idx].qty + BadgeCount(lines[idx + 1..])
    ensures Total(lines) == Total(lines[..idx]) + Amount(lines[idx]) + Total(lines[idx + 1..])
  {
    var pre, post := lines[..idx], lines[idx + 1..];
    assert lines == pre + ([lines[idx]] + post);
    BadgeCountConcat(pre, [lines[idx]] + post);
    BadgeCountConcat([lines[idx]], post);
    TotalConcat(pre, [lines[idx]] + post);
    TotalConcat([lines[idx]], post);
  }

  /** In a well-formed cart the badge is at least the number of lines, so it
      reads 0 exactly when the cart is empty. */
  lemma {:induction false} BadgeCountAtLeastLines(lines: seq<CartItem>)
    requires PositiveQuantities(lines)
    ensures BadgeCount(lines) >= |lines|
    ensures BadgeCount(lines) == 0 <==> lines == []
  {
    if lines != [] {
      BadgeCountAtLeastLines(lines[1..]);
    }
  }

  /** Adding the same product variant twice to a cart that lacks it yields one
      line with quantity 2, not two lines. */
  lemma AddSameVariantTwice(lines: seq<CartItem>, productId: string, title: string, variantId: string,
                            variantLabel: string, price: real)
    requires forall i :: 0 <= i < |lines| ==> Key(lines[i]) != (productId, variantId)
    ensures AddLine(AddLine(lines, productId, title, variantId, variantLabel, price),
                    productId, title, variantId, variantLabel, price)
            == lines + [CartItem(productId, title, variantId, variantLabel, price, 2)]
  {
    var once := AddLine(lines, productId, title, variantId, variantLabel, price);
    assert once == lines + [CartItem(productId, title, variantId, variantLabel, price, 1)];
    assert Key(once[|lines|]) == (productId, variantId);
    assert once[|lines| := once[|lines|].(qty := 2)] == lines + [CartItem(productId, title, variantId, variantLabel, price, 2)];
  }

  // ---------------------------------------------------------------------
  // The order payload built at checkout

  /** One payload item; variantId is `Number(i.variant_id)`, a number or NaN. */
  datatype PayloadItem = PayloadItem(variantId: Value, quantity: int, retailPrice: real, name: string)

  datatype OrderPayload = OrderPayload(recipient: Value, items: seq<PayloadItem>, externalId: string)

  /** The fixed placeholder recipient the shop sends. */
  const PlaceholderRecipient: Value := Obj(map[
    "name" := Str("Customer Name"),
    "address1" := Str("Address Line"),
    "city" := Str("City"),
    "state_code" := Str("State"),
    "country_code" := Str("US"),
    "zip" := Str("00000")])

  /** One line's payload item: `Number(variant_id)` is the parsed id, or
      NaN when the stored id is not a number. */
  function ItemOf(line: CartItem): (r: PayloadItem)
    ensures r.quantity == line.qty && r.name == line.title && r.retailPrice == line.price
    ensures ParseNumber(line.variantId).Some? ==> r.variantId == Num(ParseNumber(line.variantId).value as real)
    ensures ParseNumber(line.variantId).None? <==> r.variantId == NaN
  {
    PayloadItem(ToNumber(Str(line.variantId)), line.qty, line.price, line.title)
  }

  /** `items.map(...)`: one payload item per line, in cart order. */
  function PayloadItems(lines: seq<CartItem>): (items: seq<PayloadItem>)
    ensures |items| == |lines|
    ensures forall k :: 0 <= k < |lines| ==> items[k] == ItemOf(lines[k])
  {
    if lines == [] then [] else [ItemOf(lines[0])] + PayloadItems(lines[1..])
  }

  /** `buildPrintfulOrderPayload(cart)` with the clock reading `now`. */
  function BuildPayload(lines: seq<CartItem>, now: nat): (p: OrderPayload)
    ensures |p.items| == |lines|
    ensures forall k :: 0 <= k < |lines| ==>
              && p.items[k].quantity == lines[k].qty
              && p.items[k].name == lines[k].title
              && p.items[k].retailPrice == lines[k].price
              && p.items[k].variantId == ToNumber(Str(lines[k].variantId))
    ensures p.recipient == PlaceholderRecipient && p.externalId == "AURANEX-" + DecimalString(now)
  {
    OrderPayload(PlaceholderRecipient, PayloadItems(lines), "AURANEX-" + DecimalString(now))
  }

  function QuantitySum(items: seq<PayloadItem>): int {
    if items == [] then 0 else items[0].quantity + QuantitySum(items[1..])
  }

  /** The payload orders exactly as many units as the badge shows. */
  lemma {:induction false} PayloadQuantityIsBadgeCount(lines: seq<CartItem>)
    ensures QuantitySum(PayloadItems(lines)) == BadgeCount(lines)
  {
    if lines != [] {
      PayloadQuantityIsBadgeCount(lines[1..]);
      assert PayloadItems(lines)[1..] == PayloadItems(lines[1..]);
    }
  }

  /** A variant id stored as the decimal digits of n is sent as the number n. */
  lemma DecimalVariantIdSentAsNumber(line: CartItem, n: nat)
    requires line.variantId == DecimalString(n)
    ensures ItemOf(line).variantId == Num(n as real)
  {
    ParseDecimalRoundTrip(n);
  }

  // ---------------------------------------------------------------------
  // The checkout request as the browser sees it

  /** What `fetch` does: it rejects (network failure), or resolves with a
      status that is ok or not and a body that parses as JSON or not. */
  datatype FetchOutcome = NetworkError | Responded(ok: bool, jsonBody: bool)

  /** The cart is emptied only when the response is ok and `res.json()`
      succeeds; every other outcome lands in the catch block. */
  predicate CheckoutSucceeds(outcome: FetchOutcome) {
    outcome.Responded? && outcome.ok && outcome.jsonBody
  }

  // ---------------------------------------------------------------------
  // The cart store

  class Cart {
    var lines: seq<CartItem>

    ghost predicate Valid()
      reads this
    {
      WellFormed(lines)
    }

    /** The cart starts from whatever list local storage held. */
    constructor (stored: seq<CartItem>)
      ensures lines == stored
    {
      lines := stored;
    }

    method Add(productId: string, title: string, variantId: string, variantLabel: string, price: real)
      modifies this
      ensures lines == AddLine(old(lines), productId, title, variantId, variantLabel, price)
      ensures old(Valid()) ==> Valid()
    {
      var existing := IndexOfKey(lines, (productId, variantId));
      if existing >= 0 {
        lines := lines[existing := lines[existing].(qty := lines[existing].qty + 1)];
      } else {
        lines := lines + [CartItem(productId, title, variantId, variantLabel, price, 1)];
      }
    }

    method Inc(idx: int)
      requires 0 <= idx < |lines|
      modifies this
      ensures lines == IncLine(old(lines), idx)
      ensures old(Valid()) ==> Valid()
    {
      lines := lines[idx := lines[idx].(qty := lines[idx].qty + 1)];
    }

    method Dec(idx: int)
      requires 0 <= idx < |lines|
      modifies this
      ensures lines == DecLine(old(lines), idx)
      ensures old(Valid()) ==> Valid()
    {
      var q := lines[idx].qty - 1;
      if q < 1 {
        q := 1;
      }
      lines := lines[idx := lines[idx].(qty := q)];
    }

    method Remove(idx: int)
      requires 0 <= idx < |lines|
      modifies this
      ensures lines == RemoveLine(old(lines), idx)
      ensures old(Valid()) ==> Valid()
    {
      lines := lines[..idx] + lines[idx + 1..];
    }

    method Clear()
      modifies this
      ensures lines == [] && Valid()
      ensures BadgeCount(lines) == 0 && Total(lines) == 0.0
    {
      lines := [];
    }

    /** The checkout handler up to its `await`: the payload is built from
        the cart as it is when the button is clicked, and sent. Nothing
        disables the button or the cart while the request is pending. */
    method BeginCheckout(now: nat) returns (sent: OrderPayload)
      ensures sent == BuildPayload(lines, now)
      ensures QuantitySum(sent.items) == BadgeCount(lines)
    {
      sent := BuildPayload(lines, now);
      PayloadQuantityIsBadgeCount(lines);
    }

    /** The checkout handler after its `await`: success empties the cart as
        it is when the request settles; every other outcome keeps it. */
    method CompleteCheckout(outcome: FetchOutcome)
      modifies this
      ensures CheckoutSucceeds(outcome) ==> lines == []
      ensures !CheckoutSucceeds(outcome) ==> lines == old(lines)
    {
      if outcome.NetworkError? || !outcome.ok {
        return;
      }
      if !outcome.jsonBody {
        return;
      }
      lines := [];
    }

    /** The checkout button when nothing happens while the request is
        pending: the payload is the cart as it was, and the cart is emptied
        only on success. */
    method Checkout(outcome: FetchOutcome, now: nat) returns (sent: OrderPayload)
      modifies this
      ensures sent == BuildPayload(old(lines), now)
      ensures CheckoutSucceeds(outcome) ==> lines == []
      ensures !CheckoutSucceeds(outcome) ==> lines == old(lines)
    {
      sent := BeginCheckout(now);
      CompleteCheckout(outcome);
    }
  }

  /** "Add to cart" clicked while a checkout request is pending, which then
      succeeds: the order holds one unit fewer than the cart showed when the
      request settled, and the cart is emptied, so that unit is neither
      ordered nor kept. */
  method AddWhileCheckoutPending(cart: Cart, outcome: FetchOutcome, now: nat, productId: string, title: string,
                                 variantId: string, variantLabel: string, price: real)
    returns (sent: OrderPayload, pending: seq<CartItem>)
    requires CheckoutSucceeds(outcome)
    modifies cart
    ensures sent == BuildPayload(old(cart.lines), now)
    ensures pending == AddLine(old(cart.lines), productId, title, variantId, variantLabel, price)
    ensures QuantitySum(sent.items) + 1 == BadgeCount(pending)
    ensures cart.lines == []
  {
    sent := cart.BeginCheckout(now);
    cart.Add(productId, title, variantId, variantLabel, price);
    pending := cart.lines;
    AddLineSums(old(cart.lines), productId, title, variantId, variantLabel, price);
    cart.CompleteCheckout(outcome);
  }

  /** A second click on the checkout button while the first request is
      pending sends a second order for the same items. */
  method CheckoutClickedTwice(cart: Cart, now1: nat, now2: nat) returns (first: OrderPayload, second: OrderPayload)
    ensures first.items == second.items && first.recipient == second.recipient
    ensures QuantitySum(second.items) == BadgeCount(cart.lines)
  {
    first := cart.BeginCheckout(now1);
    second := cart.BeginCheckout(now2);
  }

  // ---------------------------------------------------------------------
  // Sorting and filtering the product grid

  /** A product card: its coerced price and its category. */
  datatype ProductCard = ProductCard(price: real, category: string)

  function SortKey(card: ProductCard, descending: bool): real {
    if descending then -card.price else card.price
  }

  predicate SortedBy(cards: seq<ProductCard>, descending: bool) {
    forall i, j :: 0 <= i < j < |cards| ==> SortKey(cards[i], descending) <= SortKey(cards[j], descending)
  }

  /** Insert a card into a run, after the trailing cards whose key is larger. */
  function InsertCard(sorted: seq<ProductCard>, card: ProductCard, descending: bool): (r: seq<ProductCard>)
    ensures multiset(r) == multiset(sorted) + multiset{card}
  {
    if sorted == [] || SortKey(sorted[|sorted| - 1], descending) <= SortKey(card, descending) then
      sorted + [card]
    else
      assert sorted == sorted[..|sorted| - 1] + [sorted[|sorted| - 1]];
      InsertCard(sorted[..|sorted| - 1], card, descending) + [sorted[|sorted| - 1]]
  }

  /** Every card's key is at most `bound`. */
  predicate KeysAtMost(cards: seq<ProductCard>, bound: real, descending: bool) {
    forall i :: 0 <= i < |cards| ==> SortKey(cards[i], descending) <= bound
  }

  /** Inserting a card under the bound into cards under the bound stays under it. */
  lemma {:induction false} InsertCardKeysAtMost(sorted: seq<ProductCard>, card: ProductCard, descending: bool, bound: real)
    requires KeysAtMost(sorted, bound, descending) && SortKey(card, descending) <= bound
    ensures KeysAtMost(InsertCard(sorted, card, descending), bound, descending)
  {
    if sorted != [] && SortKey(card, descending) < SortKey(sorted[|sorted| - 1], descending) {
      var rest := sorted[..|sorted| - 1];
      InsertCardKeysAtMost(rest, card, descending, bound);
    }
  }

  /** A sorted run followed by a card no smaller than all of it is sorted. */
  lemma AppendSorted(front: seq<ProductCard>, last: ProductCard, descending: bool)
    requires SortedBy(front, descending) && KeysAtMost(front, SortKey(last, descending), descending)
    ensures SortedBy(front + [last], descending)
  {
    var r := front + [last];
    forall i, j | 0 <= i < j < |r|
      ensures SortKey(r[i], descending) <= SortKey(r[j], descending)
    {
      assert r[i] == front[i];
      if j < |front| {
        assert r[j] == front[j];
      }
    }
  }

  /** Inserting into a sorted run keeps it sorted. */
  lemma {:induction false} InsertCardSorted(sorted: seq<ProductCard>, card: ProductCard, descending: bool)
    requires SortedBy(sorted, descending)
    ensures SortedBy(InsertCard(sorted, card, descending), descending)
  {
    if sorted != [] && SortKey(card, descending) < SortKey(sorted[|sorted| - 1], descending) {
      var n := |sorted|;
      var last, rest := sorted[n - 1], sorted[..n - 1];
      InsertCardSorted(rest, card, descending);
      assert KeysAtMost(rest, SortKey(last, descending), descending) by {
        forall i | 0 <= i < |rest|
          ensures SortKey(rest[i], descending) <= SortKey(last, descending)
        {
          assert rest[i] == sorted[i];
        }
      }
      InsertCardKeysAtMost(rest, card, descending, SortKey(last, descending));
      AppendSorted(InsertCard(rest, card, descending), last, descending);
    }
  }

  /** Insertion sort of the cards by price (by negated price when descending). */
  function SortByPrice(cards: seq<ProductCard>, descending: bool): (r: seq<ProductCard>)
    ensures multiset(r) == multiset(cards)
    ensures SortedBy(r, descending)
  {
    if cards == [] then []
    else
      var rest := SortByPrice(cards[..|cards| - 1], descending);
      assert cards == cards[..|cards| - 1] + [cards[|cards| - 1]];
      InsertCardSorted(rest, cards[|cards| - 1], descending);
      InsertCard(rest, cards[|cards| - 1], descending)
  }

  /** `sortProducts(mode)`: the grid's new card order. */
  function SortProducts(cards: seq<ProductCard>, mode: string): (r: seq<ProductCard>)
    ensures multiset(r) == multiset(cards)
    ensures mode == "price_low_high" ==> forall i, j :: 0 <= i < j < |r| ==> r[i].price <= r[j].price
    ensures mode == "price_high_low" ==> forall i, j :: 0 <= i < j < |r| ==> r[i].price >= r[j].price
    ensures mode != "price_low_high" && mode != "price_high_low" ==> r == cards
  {
    if mode == "price_low_high" then SortByPrice(cards, false)
    else if mode == "price_high_low" then SortByPrice(cards, true)
    else cards
  }

  /** `filterProducts(cat)` shows a card when this holds. */
  predicate Shown(card: ProductCard, cat: string)
    ensures cat == "all" ==> Shown(card, cat)
    ensures cat != "all" ==> (Shown(card, cat) <==> card.category == cat)
  {
    cat == "all" || card.category == cat
  }

  /** `filterProducts(cat)`: the display flag of each card, in grid order. */
  function DisplayFlags(cards: seq<ProductCard>, cat: string): (shown: seq<bool>)
    ensures |shown| == |cards|
    ensures forall i :: 0 <= i < |cards| ==> shown[i] == Shown(cards[i], cat)
  {
    seq(|cards|, i requires 0 <= i < |cards| => Shown(cards[i], cat))
  }

  /** The cards left visible by the filter, in grid order. */
  function VisibleCards(cards: seq<ProductCard>, cat: string): (r: seq<ProductCard>)
    ensures forall c :: multiset(r)[c] == if Shown(c, cat) then multiset(cards)[c] else 0
  {
    if cards == [] then []
    else
      assert cards == cards[..|cards| - 1] + [cards[|cards| - 1]];
      VisibleCards(cards[..|cards| - 1], cat)
      + (if Shown(cards[|cards| - 1], cat) then [cards[|cards| - 1]] else [])
  }

  /** Sorting never changes which cards the category filter shows. */
  lemma SortKeepsVisibleCards(cards: seq<ProductCard>, mode: string, cat: string)
    ensures multiset(VisibleCards(SortProducts(cards, mode), cat)) == multiset(VisibleCards(cards, cat))
  {
    var a := VisibleCards(SortProducts(cards, mode), cat);
    var b := VisibleCards(cards, cat);
    assert forall c :: multiset(a)[c] == multiset(b)[c];
  }
}

=== FILE: slideshow.dfy ===
/**
 * The service pages' slideshows. Each slideshow keeps a current index
 * over its slides and marks exactly that slide and that dot active; an
 * index past either end wraps to the other end (clamp-style, not modular).
 * A registry creates one slideshow per service type on first use.
 * Element lists are arrays of "active" flags.
 */
module Slideshow {

  /** The index `showSlide(n)` settles on for a non-empty list of `len` slides. */
  function ClampIndex(n: int, len: int): (r: int)
    requires len > 0
    ensures 0 <= r < len
    ensures 0 <= n < len ==> r == n
  {
    if n >= len then 0
    else if n < 0 then len - 1
    else n
  }

  /** Where `nextSlide` lands from index `i`. */
  function NextIndex(i: int, len: int): (r: int)
    requires len > 0
    ensures 0 <= r < len
    ensures 0 <= i < len - 1 ==> r == i + 1
    ensures i == len - 1 ==> r == 0
  {
    ClampIndex(i + 1, len)
  }

  /** Where `prevSlide` lands from index `i`. */
  function PrevIndex(i: int, len: int): (r: int)
    requires len > 0
    ensures 0 <= r < len
    ensures 0 < i < len ==> r == i - 1
    ensures i == 0 ==> r == len - 1
  {
    ClampIndex(i - 1, len)
  }

  /** Stepping forward then back, or back then forward, returns to the start. */
  lemma NextPrevInverse(i: int, len: int)
    requires 0 <= i < len
    ensures PrevIndex(NextIndex(i, len), len) == i
    ensures NextIndex(PrevIndex(i, len), len) == i
  {
  }

  /** `goToSlide` is not modular: every index past the end goes to the
      first slide and every negative index to the last. */
  lemma GoToIsNotModular(n: int, len: int)
    requires len > 0
    ensures n >= len ==> ClampIndex(n, len) == 0
    ensures n < 0 ==> ClampIndex(n, len) == len - 1
    ensures len >= 2 ==> ClampIndex(len + 1, len) != (len + 1) % len
  {
    if len >= 2 {
      assert (len + 1) % len == 1 by {
        assert len + 1 == 1 * len + 1;
      }
    }
  }

  datatype Swipe = NextSwipe | PrevSwipe | NoSwipe

  const SwipeThreshold: real := 50.0

  /** The touch handler's decision from where a swipe started and ended. */
  function SwipeAction(startX: real, endX: real): (r: Swipe)
    ensures r == NoSwipe <==> -SwipeThreshold <= startX - endX <= SwipeThreshold
    ensures r == NextSwipe <==> startX - endX > SwipeThreshold
    ensures r == PrevSwipe <==> startX - endX < -SwipeThreshold
  {
    var diff := startX - endX;
    var magnitude := if diff < 0.0 then -diff else diff;
    if magnitude > SwipeThreshold then
      (if diff > 0.0 then NextSwipe else PrevSwipe)
    else NoSwipe
  }

  /** A swipe in the opposite direction has the opposite effect. */
  lemma SwipeAntisymmetric(startX: real, endX: real)
    ensures SwipeAction(startX, endX) == NextSwipe <==> SwipeAction(endX, startX) == PrevSwipe
    ensures SwipeAction(startX, endX) == NoSwipe <==> SwipeAction(endX, startX) == NoSwipe
  {
  }

  /** `updateContainerHeight`: the container height in pixels for a
      viewport width. */
  function ContainerHeight(width: int): (px: int)
    ensures px == 200 || px == 250 || px == 400
    ensures px == 200 <==> width <= 480
    ensures px == 400 <==> width > 768
  {
    if width <= 480 then 200
    else if width <= 768 then 250
    else 400
  }

  /** A wider viewport never gets a shorter slideshow. */
  lemma ContainerHeightMonotone(w1: int, w2: int)
    requires w1 <= w2
    ensures ContainerHeight(w1) <= ContainerHeight(w2)
  {
  }

  /** One slideshow. `slides` and `dots` hold the elements' "active" flags. */
  class ServiceSlideshow {
    const serviceType: string
    var currentSlide: int
    const slides: array<bool>
    const dots: array<bool>

    ghost predicate Valid()
      reads this
    {
      && slides != dots
      && (slides.Length > 0 ==> 0 <= currentSlide < slides.Length)
    }

    /** Exactly slide `k` and dot `k` (when there is one) are active. */
    ghost predicate Shows(k: int)
      reads slides, dots
    {
      && (forall i :: 0 <= i < slides.Length ==> slides[i] == (i == k))
      && (forall i :: 0 <= i < dots.Length ==> dots[i] == (i == k))
    }

    /** A new slideshow shows its first slide. */
    constructor (serviceType: string, slides: array<bool>, dots: array<bool>)
      requires slides != dots
      modifies slides, dots
      ensures Valid()
      ensures this.serviceType == serviceType && this.slides == slides && this.dots == dots
      ensures currentSlide == 0
      ensures slides.Length > 0 ==> Shows(0)
      ensures slides.Length == 0 ==> unchanged(slides, dots)
    {
      this.serviceType := serviceType;
      this.slides := slides;
      this.dots := dots;
      currentSlide := 0;
      new;
      ShowSlide(currentSlide);
    }

    /** `showSlide(n)`: nothing happens without slides; otherwise every flag
        is cleared, the index is wrapped and its slide and dot are set. */
    method ShowSlide(n: int)
      requires slides != dots
      modifies this, slides, dots
      ensures Valid()
      ensures slides.Length == 0 ==> currentSlide == old(currentSlide) && unchanged(slides, dots)
      ensures slides.Length > 0 ==> currentSlide == ClampIndex(n, slides.Length) && Shows(currentSlide)
    {
      if slides.Length == 0 {
        return;
      }
      var i := 0;
      while i < slides.Length
        invariant 0 <= i <= slides.Length
        invariant forall j :: 0 <= j < i ==> !slides[j]
      {
        slides[i] := false;
        i := i + 1;
      }
      i := 0;
      while i < dots.Length
        invariant 0 <= i <= dots.Length
        invariant forall j :: 0 <= j < i ==> !dots[j]
        invariant forall j :: 0 <= j < slides.Length ==> !slides[j]
      {
        dots[i] := false;
        i := i + 1;
      }
      if n >= slides.Length {
        currentSlide := 0;
      } else if n < 0 {
        currentSlide := slides.Length - 1;
      } else {
        currentSlide := n;
      }
      slides[currentSlide] := true;
      if currentSlide < dots.Length {
        dots[currentSlide] := true;
      }
    }

    /** `nextSlide`: bump the counter, then show it. Without slides the
        counter keeps the raw bumped value. */
    method NextSlide()
      requires Valid()
      modifies this, slides, dots
      ensures Valid()
      ensures slides.Length == 0 ==> currentSlide == old(currentSlide) + 1 && unchanged(slides, dots)
      ensures slides.Length > 0 ==> currentSlide == NextIndex(old(currentSlide), slides.Length) && Shows(currentSlide)
    {
      currentSlide := currentSlide + 1;
      ShowSlide(currentSlide);
    }

    /** `prevSlide`, the mirror image of `nextSlide`. */
    method PrevSlide()
      requires Valid()
      modifies this, slides, dots
      ensures Valid()
      ensures slides.Length == 0 ==> currentSlide == old(currentSlide) - 1 && unchanged(slides, dots)
      ensures slides.Length > 0 ==> currentSlide == PrevIndex(old(currentSlide), slides.Length) && Shows(currentSlide)
    {
      currentSlide := currentSlide - 1;
      ShowSlide(currentSlide);
    }

    /** `goToSlide(n)`. */
    method GoToSlide(n: int)
      requires Valid()
      modifies this, slides, dots
      ensures Valid()
      ensures slides.Length == 0 ==> currentSlide == n && unchanged(slides, dots)
      ensures slides.Length > 0 ==> currentSlide == ClampIndex(n, slides.Length) && Shows(currentSlide)
    {
      currentSlide := n;
      ShowSlide(currentSlide);
    }

    /** The touchend handler. */
    method HandleSwipe(startX: real, endX: real)
      requires Valid()
      modifies this, slides, dots
      ensures Valid()
      ensures SwipeAction(startX, endX) == NoSwipe ==> currentSlide == old(currentSlide) && unchanged(slides, dots)
      ensures SwipeAction(startX, endX) == NextSwipe && slides.Length > 0 ==>
                currentSlide == NextIndex(old(currentSlide), slides.Length) && Shows(currentSlide)
      ensures SwipeAction(startX, endX) == PrevSwipe && slides.Length > 0 ==>
                currentSlide == PrevIndex(old(currentSlide), slides.Length) && Shows(currentSlide)
      ensures SwipeAction(startX, endX) == NextSwipe && slides.Length == 0 ==>
                currentSlide == old(currentSlide) + 1 && unchanged(slides, dots)
      ensures SwipeAction(startX, endX) == PrevSwipe && slides.Length == 0 ==>
                currentSlide == old(currentSlide) - 1 && unchanged(slides, dots)
    {
      var action := SwipeAction(startX, endX);
      if action == NextSwipe {
        NextSlide();
      } else if action == PrevSwipe {
        PrevSlide();
      }
    }
  }

  /** The page's `slideshows` object: at most one slideshow per service
      type, created on first use. */
  class Registry {
    var slideshows: map<string, ServiceSlideshow>

    /** Each entry is keyed by its own service type, and different entries
        never share an element list. */
    ghost predicate Valid()
      reads this, slideshows.Values
    {
      && (forall t :: t in slideshows ==> slideshows[t].serviceType == t && slideshows[t].Valid())
      && (forall t, u :: t in slideshows && u in slideshows && t != u ==>
            {slideshows[t].slides, slideshows[t].dots} !! {slideshows[u].slides, slideshows[u].dots})
    }

    /** `slides` and `dots` belong to no registered slideshow. */
    ghost predicate Unclaimed(slides: array<bool>, dots: array<bool>)
      reads this
    {
      forall t :: t in slideshows ==> {slides, dots} !! {slideshows[t].slides, slideshows[t].dots}
    }

    constructor ()
      ensures Valid() && slideshows == map[]
    {
      slideshows := map[];
    }

    /** The registry's instance for `serviceType`, created with the given
        elements when there is none yet. */
    method Lookup(serviceType: string, slides: array<bool>, dots: array<bool>) returns (s: ServiceSlideshow)
      requires Valid()
      requires slides != dots
      requires serviceType !in slideshows ==> Unclaimed(slides, dots)
      modifies this, slides, dots
      ensures Valid()
      ensures s.Valid() && s.serviceType == serviceType
      ensures serviceType in slideshows && slideshows[serviceType] == s
      ensures serviceType in old(slideshows) ==> slideshows == old(slideshows) && unchanged(slides, dots)
      ensures serviceType !in old(slideshows) ==>
                && fresh(s) && slideshows == old(slideshows)[serviceType := s]
                && s.slides == slides && s.dots == dots && s.currentSlide == 0
      ensures forall t :: t in old(slideshows) ==> slideshows[t] == old(slideshows[t])
      ensures forall t :: t in old(slideshows) && t != serviceType ==>
                unchanged(slideshows[t], slideshows[t].slides, slideshows[t].dots)
      ensures forall t :: t in old(slideshows) ==> slideshows[t].currentSlide == old(slideshows[t].currentSlide)
    {
      if serviceType in slideshows {
        s := slideshows[serviceType];
      } else {
        s := new ServiceSlideshow(serviceType, slides, dots);
        slideshows := slideshows[serviceType := s];
      }
    }

    /** Steps the registered slideshow of `serviceType` forward or back;
        no other slideshow and no other element changes. */
    method Step(serviceType: string, forward: bool)
      requires Valid() && serviceType in slideshows
      modifies slideshows[serviceType], slideshows[serviceType].slides, slideshows[serviceType].dots
      ensures Valid()
      ensures var s := slideshows[serviceType];
              var start := old(s.currentSlide);
              && (s.slides.Length > 0 ==>
                    && s.currentSlide == (if forward then NextIndex(start, s.slides.Length) else PrevIndex(start, s.slides.Length))
                    && s.Shows(s.currentSlide))
              && (s.slides.Length == 0 ==> s.currentSlide == (if forward then start + 1 else start - 1))
      ensures forall t :: t in slideshows && t != serviceType ==>
                unchanged(slideshows[t], slideshows[t].slides, slideshows[t].dots)
    {
      var s := slideshows[serviceType];
      if forward {
        s.NextSlide();
      } else {
        s.PrevSlide();
      }
    }

    /** Sends the registered slideshow of `serviceType` to slide `n`; no
        other slideshow and no other element changes. */
    method GoTo(serviceType: string, n: int)
      requires Valid() && serviceType in slideshows
      modifies slideshows[serviceType], slideshows[serviceType].slides, slideshows[serviceType].dots
      ensures Valid()
      ensures var s := slideshows[serviceType];
              && (s.slides.Length > 0 ==> s.currentSlide == ClampIndex(n, s.slides.Length) && s.Shows(s.currentSlide))
              && (s.slides.Length == 0 ==> s.currentSlide == n)
      ensures forall t :: t in slideshows && t != serviceType ==>
                unchanged(slideshows[t], slideshows[t].slides, slideshows[t].dots)
    {
      slideshows[serviceType].GoToSlide(n);
    }

    /** `changeSlide(serviceType, direction)`: direction 1 steps forward,
        anything else steps back. Other slideshows keep their index. */
    method ChangeSlide(serviceType: string, direction: int, slides: array<bool>, dots: array<bool>)
      requires Valid()
      requires slides != dots
      requires serviceType !in slideshows ==> Unclaimed(slides, dots)
      modifies this, slides, dots, slideshows.Values,
               set s | s in slideshows.Values :: s.slides,
               set s | s in slideshows.Values :: s.dots
      ensures Valid()
      ensures serviceType in slideshows
      ensures serviceType in old(slideshows) ==> slideshows == old(slideshows)
      ensures serviceType !in old(slideshows) ==>
                && slideshows.Keys == old(slideshows).Keys + {serviceType}
                && slideshows[serviceType].slides == slides && slideshows[serviceType].dots == dots
      ensures var s := slideshows[serviceType];
              var start := if serviceType in old(slideshows) then old(slideshows[serviceType].currentSlide) else 0;
              && (s.slides.Length > 0 ==>
                    && s.currentSlide == (if direction == 1 then NextIndex(start, s.slides.Length)
                                          else PrevIndex(start, s.slides.Length))
                    && s.Shows(s.currentSlide))
              && (s.slides.Length == 0 ==> s.currentSlide == (if direction == 1 then start + 1 else start - 1))
      ensures forall t :: t in old(slideshows) && t != serviceType ==>
                && slideshows[t] == old(slideshows[t])
                && unchanged(slideshows[t], slideshows[t].slides, slideshows[t].dots)
    {
      var s := Lookup(serviceType, slides, dots);
      Step(serviceType, direction == 1);
    }

    /** `currentSlide(serviceType, k)`: dot k (counted from 1) shows slide k - 1. */
    method CurrentSlide(serviceType: string, k: int, slides: array<bool>, dots: array<bool>)
      requires Valid()
      requires slides != dots
      requires serviceType !in slideshows ==> Unclaimed(slides, dots)
      modifies this, slides, dots, slideshows.Values,
               set s | s in slideshows.Values :: s.slides,
               set s | s in slideshows.Values :: s.dots
      ensures Valid()
      ensures serviceType in slideshows
      ensures serviceType in old(slideshows) ==> slideshows == old(slideshows)
      ensures serviceType !in old(slideshows) ==>
                && slideshows.Keys == old(slideshows).Keys + {serviceType}
                && slideshows[serviceType].slides == slides && slideshows[serviceType].dots == dots
      ensures var s := slideshows[serviceType];
              && (s.slides.Length > 0 ==> s.currentSlide == ClampIndex(k - 1, s.slides.Length) && s.Shows(s.currentSlide))
              && (s.slides.Length == 0 ==> s.currentSlide == k - 1)
      ensures forall t :: t in old(slideshows) && t != serviceType ==>
                && slideshows[t] == old(slideshows[t])
                && unchanged(slideshows[t], slideshows[t].slides, slideshows[t].dots)
    {
      var s := Lookup(serviceType, slides, dots);
      GoTo(serviceType, k - 1);
    }
  }
}

=== FILE: wrappers.dfy ===
/** Optional values, shared by every module of the model. */
module Wrappers {

  /** A value that may be absent: JavaScript's `null`, a missing storage slot,
      or a coercion that yields NaN. */
  datatype Option<+T> = None | Some(value: T)
}
